=== FILE: README.md ===
# Cardio Care inference model in Dafny

Cardio Care puts a pre-trained cardiovascular-disease classifier behind two front ends:

- **The web endpoint `POST /predict`** in `app.py`. It reads eleven patient attributes from a form, with a default for each absent field. It derives body-mass index and pulse pressure and lays out a 13-column feature vector in the order the scaler and classifier were fitted on. It scales the vector, predicts, and replies with JSON: the label and, when available, the positive-class probability as a percentage rounded to one decimal.
- **The Streamlit dashboard** in `streamlit_cardio_ui.py`. It maps widget labels to codes and refuses to predict without a model or when the diastolic pressure exceeds the systolic. It aligns its columns with the model's `feature_names_in_` and classifies the risk and the patient's measures into fixed advice buckets.

This project models both as pure Dafny functions over exact `real` numbers:

| file | module | models |
|---|---|---|
| `common.dfy` | `Common` | `Option`, `Result` (an exception is a `Failure` carrying its message), rows and matrices |
| `numbers.dfy` | `Numbers` | the subset of Python's `int(str)` / `float(str)` that plain decimal numerals go through, their renderings, `round(x, 1)` |
| `features.dfy` | `Features` | the patient record, body-mass index, pulse pressure, the 13 feature columns and the row built from them |
| `artifacts.dfy` | `Artifacts` | the persisted classifier and scaler, as opaque function-valued fields |
| `api.dfy` | `Api` | the `/predict` handler: artifact guards, form reading, inference, reply shaping |
| `advice.dfy` | `Advice` | risk tier, general recommendation, BMI / blood-pressure / pulse-pressure / cholesterol / glucose / lifestyle advice |
| `dashboard.dfy` | `Dashboard` | one run of the dashboard script: label codes, the pressure guard, column alignment, risk extraction, the displayed assessment |

The scikit-learn objects are opaque. `Model` carries `predict`, an optional `predictProba` (absent when the estimator has no such attribute) and optional feature names. `Scaler` carries `transform`. Each call returns a `Result`, so any of them may raise. The properties hold for every such function.

Behaviours of the code worth knowing, which the model keeps:

- The endpoint reads only `request.form` (`app.py:98`), so a JSON body is ignored and every field takes its default.
- A missing model or scaler gets a 500 reply whose body is `{"error": ...}`, without a `success` flag (`app.py:90-94`).
- The endpoint never compares the diastolic with the systolic pressure. The dashboard rejects only a strictly greater diastolic (`ap_lo > ap_hi`), although its message says the diastolic "must be less than" the systolic. Equal readings are therefore accepted.
- The risk tier is total over all reals, not only over [0, 1]. A reported percentage lies in [0, 100] only when the classifier's probability lies in [0, 1] (`Api.ProbabilityIsPercentage`).
- The dashboard sends its values unscaled (`Dashboard.SameLayoutAsEndpoint`), while the endpoint scales them first.
- The dashboard's frame names the age column `age_years`, where the scaler's columns use `Age_Year`. A model whose feature names are the scaler's columns is therefore given age 0 (`Dashboard.AgeZeroForScalerNames`).

## Model

| member | source | states |
|---|---|---|
| `Numbers.ParseInt` | app.py:101 | `int()` of a form string succeeds exactly when every character is a digit, except that the first may be a sign, and there is a digit; otherwise it raises "invalid literal for int() with base 10: '…'"; a negative result comes from a leading '-' |
| `Numbers.ParseIntOfDigits` | app.py:101 | `int()` reads any digit run with a '+', a '-' or a leading zero in front as the number the digits denote, so "+7" and "007" are 7 and "-7" is -7 |
| `Numbers.IntToString` | app.py:101 | the rendering of any integer is read back by `int()` as that same integer |
| `Numbers.ParseFloat` | app.py:102 | `float()` of a form string succeeds exactly when every character is a digit or a decimal point, except that the first may be a sign, at most one is a point and there is a digit; otherwise it raises "could not convert string to float: '…'" |
| `Numbers.ParseFloatExtendsParseInt` | app.py:101-111 | every numeral `int()` accepts is accepted by `float()` with the same value |
| `Numbers.ParseFloatDecimal` | app.py:102 | `float()` reads "w.f", w the rendering of a natural number, as w plus f over ten to the number of digits of f; the case of `Numbers.ParseFloatSignedDecimal` that plain form numerals such as "80.5" fall under |
| `Numbers.ParseFloatSignedDecimal` | app.py:102-111 | `float()` reads any numeral with a point, such as "80.5", "+1.5", "-80.5", ".5" or "7.", as the whole digits plus the fraction digits over ten to their count, negated after a '-' |
| `Numbers.ParseFloatOfNatString` | app.py:102 | `float()` reads the decimal rendering of a natural number back as that number |
| `Numbers.RoundHalfEven` | app.py:156 | the result is an integer nearest the input, and on a tie it is the even one |
| `Numbers.Round1` | app.py:156 | `round(x, 1)` is within 0.05 of x and is a multiple of one tenth |
| `Numbers.Round1Monotone` | app.py:156 | rounding preserves the order of two values |
| `Numbers.Round1Idempotent` | app.py:156 | rounding an already rounded value changes nothing |
| `Numbers.Round1Percent` | app.py:155-156 | a probability in [0, 1], times 100 and rounded, lies in [0, 100] |
| `Features.Bmi` | app.py:114 | BMI times the squared height in metres gives back the weight; a zero height raises "float division by zero" |
| `Features.Derive` | app.py:113-117 | derivation fails exactly on a zero height; pulse pressure plus diastolic equals systolic, negative exactly when the diastolic exceeds the systolic |
| `Features.ToRow` | app.py:121-135 | the row has exactly 13 slots, one per fitted column |
| `Features.ColumnsDistinct` | app.py:119-120 | no column name occurs twice |
| `Features.RowFollowsColumns` | app.py:121-135 | slot i holds the feature named by column i (gender, height, weight, ap_hi, ap_lo, cholesterol, gluc, smoke, alco, active, Age_Year, bmi, pulse_pressure) |
| `Features.RowIsInjective` | app.py:121-135 | different feature vectors never give the same row |
| `Api.ReadInput` | app.py:100-111 | reading succeeds exactly when every present field converts as `int` or `float` as the handler reads it; each attribute is the converted field or its default; on failure the error is that of the first unconvertible field in reading order (`Api.ReadInputStopsAtFirstBadField`) |
| `Api.PositiveClass` | app.py:147-153 | the probability is column 1 of the first row when that row has two or more columns, else column 0; an exception or an empty result gives none |
| `Api.ProbabilityPercent` | app.py:143-161 | a probability is reported exactly when `predict_proba` exists and yields a positive-class value, and it is that value times 100 rounded to a tenth |
| `Api.Infer` | app.py:137-167 | inference succeeds exactly when the scaler and `predict` succeed on the one-row batch with a non-empty label array; the label is the first one |
| `Api.Predict` | app.py:88-173 | a missing model, then a missing scaler, gives 500 before the form is read; the status is 200, 400 or 500 and matches the reply's shape; an unconvertible form gives 400 |
| `Api.DefaultRequest` | app.py:101-117 | an empty form reads as gender 0, height 170, weight 70, pressures 120/80, cholesterol 1, glucose 1, smoke 0, alcohol 0, active 1 and age 45, with pulse pressure 40 and BMI 70/1.7², between 24.22 and 24.23 |
| `Api.SuccessCondition` | app.py:96-173 | a request succeeds exactly when the form converts, the height is non-zero, and scaler and `predict` accept the row; no pressure check is involved |
| `Api.SuccessfulReply` | app.py:96-167 | a 200 reply's label is the first label `predict` gives for the scaled row of the form's own values, laid out column by column, and its probability is the rounded percentage `predict_proba` yields on that same scaled row |
| `Api.ProbabilityNeverDecides` | app.py:143-167 | replacing `predict_proba` by anything never changes the status or the label |
| `Api.ProbabilityFailureIsNull` | app.py:145-167 | when `predict_proba` raises, a successful reply carries a null probability |
| `Api.ProbabilityIsPercentage` | app.py:150-156 | a classifier probability in [0, 1] is reported as a percentage in [0, 100] |
| `Api.ZeroHeightRejected` | app.py:114 | a zero height gives a 400 reply with the division-by-zero message |
| `Api.NonNumericRejected` | app.py:101-111 | a field the handler reads that holds a letter (any character no numeral has) gets a 400 reply, whatever the other fields hold |
| `Api.SingleNonNumericField` | app.py:101-111 | a form whose one field holds such a character gets 400 with the ValueError message of that field's `int()` or `float()` conversion |
| `Api.ReadInputStopsAtFirstBadField` | app.py:101-111 | reading fails exactly when some field, in the order the handler reads them, does not convert; it then fails with the ValueError of the first such field, whatever the later fields hold |
| `Api.FailsAt` | app.py:101-111 | when every field before the k-th converts and the k-th does not, the k-th is present and reading fails with its `int()` or `float()` message |
| `Api.BadFieldReply` | app.py:169-173 | the first field that does not convert gives a 400 reply carrying that field's ValueError message |
| `Api.InferenceErrorReply` | app.py:138-141 | once the form is read with a non-zero height, a failing `scaler.transform` gives 400 with its message, then a failing `predict` with its message, then an empty label array with numpy's index message |
| `Api.KeySets` | app.py:101-111 | the fields read with `int()` are gender, cholesterol, gluc, smoke, alco and active, and those read with `float()` are height, weight, ap_hi, ap_lo and Age_Year |
| `Api.InvertedPressureAccepted` | app.py:104-117 | a diastolic above the systolic is accepted, and the row carries the negative pulse pressure |
| `Advice.TierOf` | streamlit_cardio_ui.py:209-217 | low exactly below 0.30, moderate exactly in [0.30, 0.60), high exactly from 0.60 |
| `Advice.TierCountsThresholds` | streamlit_cardio_ui.py:209-217 | the tier's rank is the number of thresholds the risk has reached |
| `Advice.TierMonotone` | streamlit_cardio_ui.py:209-217 | a higher risk never gets a lower tier |
| `Advice.RecommendationOf` | streamlit_cardio_ui.py:235-240 | the recommendation is keyed on the same thresholds, 0.30 and 0.60 |
| `Advice.RecommendationMatchesTier` | streamlit_cardio_ui.py:209-240 | the recommendation always belongs to the displayed tier, and the tier can be read back from it |
| `Advice.BmiBandOf` | streamlit_cardio_ui.py:243-250 | below 18.5 low, [18.5, 24.9] healthy, (24.9, 29.9] overweight, above 29.9 obese |
| `Advice.BmiBandMonotone` | streamlit_cardio_ui.py:243-250 | a higher BMI never gets a lower band |
| `Advice.PressureBandOf` | streamlit_cardio_ui.py:253-258 | hypertension exactly when systolic ≥ 140 or diastolic ≥ 90; elevated exactly when not, and systolic ≥ 130 or diastolic ≥ 85; otherwise normal |
| `Advice.PressureMonotone` | streamlit_cardio_ui.py:253-258 | raising either reading never lowers the band |
| `Advice.PulseBandOf` | streamlit_cardio_ui.py:261-266 | elevated exactly above 60, low exactly below 30, normal in [30, 60] |
| `Advice.PulseMonotone` | streamlit_cardio_ui.py:261-266 | a wider pulse pressure never gets a lower band |
| `Advice.LevelAdviceOf` | streamlit_cardio_ui.py:268-282 | code 3 high, code 2 slightly high, every other code normal |
| `Advice.LevelAdviceFollowsCode` | streamlit_cardio_ui.py:268-282 | over the codes 1 to 3 the advice's severity is the code minus one, so a higher code never gets milder advice |
| `Advice.LifestyleWarnings` | streamlit_cardio_ui.py:285-290 | each warning appears exactly when its own flag says so, in a fixed order without repeats |
| `Advice.WarningsIndependent` | streamlit_cardio_ui.py:285-290 | changing one lifestyle flag never changes another flag's warning |
| `Dashboard.GenderCode` | streamlit_cardio_ui.py:104 | Male is 1 and anything else 0; for the offered options the code is the option's position |
| `Dashboard.LevelCode` | streamlit_cardio_ui.py:148-149 | a code exists exactly for the three offered labels; it is in 1..3 and is one more than the label's position |
| `Dashboard.AnswerCode` | streamlit_cardio_ui.py:159-163 | Yes is 1 and anything else 0; for the offered options the code is the option's position |
| `Dashboard.LevelCodeRoundTrip` | streamlit_cardio_ui.py:148-149 | each code 1..3 maps back from the label at its position |
| `Dashboard.Lookup` | streamlit_cardio_ui.py:200-201 | a name the frame lacks gives the fill value 0; otherwise the value of the first column with that name |
| `Dashboard.Reindex` | streamlit_cardio_ui.py:200-201 | one output column per requested name, in the requested order, each carrying the frame's value under that name or 0 |
| `Dashboard.ReindexOwnColumns` | streamlit_cardio_ui.py:200-201 | reindexing a frame by its own distinct columns changes nothing |
| `Dashboard.ReindexOneRenamed` | streamlit_cardio_ui.py:182-201 | reindexing by the frame's columns with one renamed to an unknown name zeroes exactly that slot |
| `Dashboard.DashboardColumnsDistinct` | streamlit_cardio_ui.py:182-196 | the dashboard's dictionary has no repeated key |
| `Dashboard.AgeLostUnderScalerColumns` | streamlit_cardio_ui.py:182-201 | aligned to the scaler's column names, the dashboard's frame keeps every value but the age, which becomes 0 |
| `Dashboard.ReadWidgets` | streamlit_cardio_ui.py:104-163 | reading fails exactly on a zero height or an unknown level label, never within the widgets' domain; BMI and pulse pressure relate to the inputs as in the endpoint; gender is 1 exactly for "Male", and smoke, alcohol and activity are 1 exactly for "Yes", each code 0 or 1 otherwise |
| `Dashboard.DashboardFrame` | streamlit_cardio_ui.py:182-198 | the frame has the dictionary's 13 columns in insertion order |
| `Dashboard.ModelInput` | streamlit_cardio_ui.py:200-201 | the frame is aligned to the model's feature names when it has them, each column carrying the frame's value under that name or the fill value 0, and is left as it is otherwise |
| `Dashboard.RiskOf` | streamlit_cardio_ui.py:204 | the risk is column 1 of the first `predict_proba` row, and exists exactly when that call succeeds with such a row |
| `Dashboard.RiskAgreesWithEndpoint` | streamlit_cardio_ui.py:204 | the dashboard's risk is the positive-class probability the endpoint reads; on a one-column row the endpoint falls back to column 0 while the dashboard raises |
| `Dashboard.Assess` | streamlit_cardio_ui.py:198-290 | an assessment exists exactly when `predict` and the risk read from `predict_proba` both succeed (for a risk in [0, 1], see "Left out"); its tier and recommendation match that risk, and each advice field is the bucket of this run's BMI, pressures, pulse pressure, codes and flags on the dashboard's thresholds |
| `Dashboard.Run` | streamlit_cardio_ui.py:173-205 | a result is shown only after the button, with a model, and with diastolic ≤ systolic, so its pulse pressure is ≥ 0; each refusal names its guard; a reading error ends the run; past the guards a result is shown exactly when `predict` and the risk succeed; the tier and the recommendation shown are those of the risk; with feature names, the model receives the frame's value under each name or 0 |
| `Dashboard.WidgetsReachTheModel` | streamlit_cardio_ui.py:98-205 | within the widgets' domain a run stops at a guard or reaches the model; it then shows a result exactly when `predict` and `predict_proba` succeed (for a risk in [0, 1]), and otherwise ends with the exception of the call that raised |
| `Dashboard.ShownAdvice` | streamlit_cardio_ui.py:242-290 | a shown assessment's advice follows the widgets: hypertension exactly when systolic ≥ 140 or diastolic ≥ 90, a wide pulse pressure exactly above 60, high cholesterol exactly for "Well Above Normal", a smoking warning exactly for "Yes", an inactivity warning exactly when "Physically Active" is not "Yes", and so on for every field |
| `Dashboard.SameLayoutAsEndpoint` | streamlit_cardio_ui.py:182-203 | a model without feature names receives the endpoint's 13-column row, unscaled, with the age in the age slot |
| `Dashboard.AgeZeroForScalerNames` | streamlit_cardio_ui.py:182-201 | a model whose feature names are the scaler's columns receives age 0, and every other value unchanged |

## Left out

- Artifact loading is not modelled: joblib/pickle deserialisation, file-existence checks and the fallback fitting of a `StandardScaler` from a CSV file (`app.py:18-64`, `streamlit_cardio_ui.py:82-91`). These are I/O and foreign-library calls. Their result is the `Option` of a model or scaler that the handler and the dashboard receive.
- The internals of `scaler.transform`, `model.predict` and `model.predict_proba` are not modelled: they are opaque fitted scikit-learn objects, kept as arbitrary functions. scikit-learn's feature-name validation and its warnings are left out too.
- Exact IEEE-754 arithmetic is not modelled. All arithmetic is exact on `real`, so NaN, infinities, overflow (`OverflowError` from `**`), underflow of a tiny height to zero and the binary rounding of `p * 100` are not represented.
- Numbers.Round1: rounds the exact real value half-to-even. Python rounds the float actually stored, which can differ on values that are not exactly representable.
- Numbers.ParseInt: accepts only an optional sign and ASCII digits. Python's `int()` also accepts surrounding whitespace, underscores between digits and other Unicode digits; the model rejects these. Python 3.11 and later reject a numeral of more than 4300 digits; the model accepts it.
- Features.ToRow: the row is built with `as real`, which never fails. `np.array(..., dtype=np.float64)` raises `OverflowError` for an integer field beyond float64's range, such as gender "1" followed by 309 zeros, so the source answers such a request with 400 where the model answers 200 (`Api.SuccessCondition`).
- Numbers.ParseFloat: accepts only an optional sign and ASCII digits with at most one decimal point. Python's `float()` also accepts surrounding whitespace, underscores between digits, exponents, `inf`, `nan` and other Unicode decimal digits (`float("١٢")` is 12.0); the model rejects these.
- Error messages are the text `str(e)` gives for the exception Python raises, with these gaps. CPython's `int()` and `float()` messages insert the `repr` of the offending string, and `int()` formats it with `%.200R`. The model inserts the raw string between single quotes instead. So it does not reproduce `repr`'s choice of double quotes for a string that contains a single quote. It does not reproduce `repr`'s escaping of backslashes, newlines, tabs and other control or non-printable characters: `int("a\nb")` reports `'a\\nb'`, where the model inserts the raw newline. It does not reproduce the truncation of `int()`'s operand to 200 characters. The AttributeError for an estimator without `predict_proba` omits the estimator's quoted class name, which the model does not carry.
- Dashboard.Reindex: pandas raises "cannot reindex on an axis with duplicate labels" when the frame's columns repeat; the model takes the first column so named instead. The dashboard's frame never repeats a column (`Dashboard.DashboardColumnsDistinct`), so this case does not arise.
- A form field sent more than once (`request.form.get` takes the first value) is not modelled: the form is a map with one value per key.
- `int(prediction)` on a non-integer label is not modelled: labels are integers.
- Flask routing, template rendering and `jsonify` serialisation are not modelled: they are presentation (`app.py:68-86`, `app.py:175-176`).
- Dashboard.Assess: `st.progress(float(risk))` (`streamlit_cardio_ui.py:225`) raises for a risk outside [0, 1] or a NaN risk, before any advice is shown. The model has no such failure, so its "shown exactly when `predict` and `predict_proba` succeed" holds for a classifier whose probabilities lie in [0, 1], as scikit-learn's do.
- The Streamlit page is not modelled: layout, CSS, widgets, messages and colours, and the `:.2f` formatting of BMI and risk. The widgets' bounds and option lists appear only as the predicate `WidgetDomain`.
- `static/js/main.js` (DOM handling and result rendering) and `check_env.py` (an environment probe writing a status file) are UI and I/O, and are not part of this model.

=== FILE: advice.dfy ===
/** The dashboard's fixed-threshold classifications: the risk tier, the general
    recommendation, and the advice on body-mass index, blood pressure, pulse
    pressure, cholesterol, glucose and lifestyle. Each is a step function. */
module Advice {

  /** The banner shown above the risk probability. */
  datatype RiskTier = LowRisk | ModerateRisk | HighRisk

  function TierRank(t: RiskTier): nat {
    match t
    case LowRisk => 0
    case ModerateRisk => 1
    case HighRisk => 2
  }

  /** Tier of a probability on the 0-1 scale: below 0.30 low, below 0.60 moderate, else high. */
  function TierOf(risk: real): (t: RiskTier)
    ensures t == LowRisk <==> risk < 0.30
    ensures t == ModerateRisk <==> 0.30 <= risk < 0.60
    ensures t == HighRisk <==> 0.60 <= risk
  {
    if risk < 0.30 then LowRisk
    else if risk < 0.60 then ModerateRisk
    else HighRisk
  }

  /** The tier's rank is the number of thresholds (0.30 and 0.60) the risk has reached. */
  lemma TierCountsThresholds(risk: real)
    ensures TierRank(TierOf(risk)) == (if risk >= 0.30 then 1 else 0) + (if risk >= 0.60 then 1 else 0)
  {
  }

  /** A higher risk never gets a lower tier. */
  lemma TierMonotone(a: real, b: real)
    requires a <= b
    ensures TierRank(TierOf(a)) <= TierRank(TierOf(b))
  {
  }

  /** The general recommendation opening the advice section. */
  datatype Recommendation = KeepHealthyLifestyle | ImproveAndCheckUp | SeekConsultation

  /** The recommendation, chosen by its own comparison of the risk with 0.30 and 0.60. */
  function RecommendationOf(risk: real): (r: Recommendation)
    ensures r == KeepHealthyLifestyle <==> risk < 0.30
    ensures r == ImproveAndCheckUp <==> 0.30 <= risk < 0.60
    ensures r == SeekConsultation <==> 0.60 <= risk
  {
    if risk < 0.30 then KeepHealthyLifestyle
    else if risk < 0.60 then ImproveAndCheckUp
    else SeekConsultation
  }

  /** The recommendation that belongs with each tier. */
  function RecommendationFor(t: RiskTier): Recommendation {
    match t
    case LowRisk => KeepHealthyLifestyle
    case ModerateRisk => ImproveAndCheckUp
    case HighRisk => SeekConsultation
  }

  /** The recommendation always matches the tier on display, and the tier can be
      read back from it. */
  lemma RecommendationMatchesTier(risk: real)
    ensures RecommendationOf(risk) == RecommendationFor(TierOf(risk))
    ensures forall t: RiskTier :: RecommendationFor(t) == RecommendationOf(risk) ==> t == TierOf(risk)
  {
  }

  /** Body-mass-index advice. */
  datatype BmiBand = Underweight | HealthyWeight | Overweight | Obese

  function BmiBandRank(b: BmiBand): nat {
    match b
    case Underweight => 0
    case HealthyWeight => 1
    case Overweight => 2
    case Obese => 3
  }

  /** Below 18.5 low; up to 24.9 healthy; up to 29.9 overweight; above that obese. */
  function BmiBandOf(bmi: real): (b: BmiBand)
    ensures b == Underweight <==> bmi < 18.5
    ensures b == HealthyWeight <==> 18.5 <= bmi <= 24.9
    ensures b == Overweight <==> 24.9 < bmi <= 29.9
    ensures b == Obese <==> 29.9 < bmi
  {
    if bmi < 18.5 then Underweight
    else if bmi <= 24.9 then HealthyWeight
    else if bmi <= 29.9 then Overweight
    else Obese
  }

  lemma BmiBandMonotone(a: real, b: real)
    requires a <= b
    ensures BmiBandRank(BmiBandOf(a)) <= BmiBandRank(BmiBandOf(b))
  {
  }

  /** Blood-pressure advice. */
  datatype PressureBand = NormalPressure | ElevatedPressure | Hypertension

  function PressureRank(b: PressureBand): nat {
    match b
    case NormalPressure => 0
    case ElevatedPressure => 1
    case Hypertension => 2
  }

  /** Hypertension when either reading reaches its stage-2 bound (140 / 90); otherwise
      elevated when either reaches 130 / 85; otherwise normal. */
  function PressureBandOf(apHi: real, apLo: real): (b: PressureBand)
    ensures b == Hypertension <==> apHi >= 140.0 || apLo >= 90.0
    ensures b == ElevatedPressure <==> apHi < 140.0 && apLo < 90.0 && (apHi >= 130.0 || apLo >= 85.0)
    ensures b == NormalPressure <==> apHi < 130.0 && apLo < 85.0
  {
    if apHi >= 140.0 || apLo >= 90.0 then Hypertension
    else if apHi >= 130.0 || apLo >= 85.0 then ElevatedPressure
    else NormalPressure
  }

  /** Raising either reading never lowers the band. */
  lemma PressureMonotone(hi: real, lo: real, hi': real, lo': real)
    requires hi <= hi' && lo <= lo'
    ensures PressureRank(PressureBandOf(hi, lo)) <= PressureRank(PressureBandOf(hi', lo'))
  {
  }

  /** Pulse-pressure advice. */
  datatype PulseBand = LowPulse | NormalPulse | WidePulse

  /** Orders the pulse-pressure bands from low to wide. */
  function PulseRank(b: PulseBand): nat {
    match b
    case LowPulse => 0
    case NormalPulse => 1
    case WidePulse => 2
  }

  /** Above 60 elevated, below 30 low, otherwise normal. */
  function PulseBandOf(pp: real): (b: PulseBand)
    ensures b == WidePulse <==> pp > 60.0
    ensures b == LowPulse <==> pp < 30.0
    ensures b == NormalPulse <==> 30.0 <= pp <= 60.0
  {
    if pp > 60.0 then WidePulse
    else if pp < 30.0 then LowPulse
    else NormalPulse
  }

  /** A wider pulse pressure never gets a lower band. */
  lemma PulseMonotone(a: real, b: real)
    requires a <= b
    ensures PulseRank(PulseBandOf(a)) <= PulseRank(PulseBandOf(b))
  {
  }

  /** Advice on a cholesterol or glucose code. */
  datatype LevelAdvice = LevelNormal | LevelSlightlyHigh | LevelHigh

  /** Code 3 is high, code 2 slightly high, every other code normal. */
  function LevelAdviceOf(code: int): (a: LevelAdvice)
    ensures a == LevelHigh <==> code == 3
    ensures a == LevelSlightlyHigh <==> code == 2
    ensures a == LevelNormal <==> code != 2 && code != 3
  {
    if code == 3 then LevelHigh
    else if code == 2 then LevelSlightlyHigh
    else LevelNormal
  }

  function LevelRank(a: LevelAdvice): nat {
    match a
    case LevelNormal => 0
    case LevelSlightlyHigh => 1
    case LevelHigh => 2
  }

  /** Over the codes the level labels map to (1 to 3), the advice's rank is the code
      minus one, so a higher code never gets milder advice. */
  lemma LevelAdviceFollowsCode(a: int, b: int)
    requires 1 <= a <= 3 && 1 <= b <= 3
    ensures LevelRank(LevelAdviceOf(a)) == a - 1
    ensures a <= b ==> LevelRank(LevelAdviceOf(a)) <= LevelRank(LevelAdviceOf(b))
  {
  }

  /** Lifestyle warnings, in the order they are shown. */
  datatype Warning = Smoking | Alcohol | Inactivity

  function WarningRank(w: Warning): nat {
    match w
    case Smoking => 0
    case Alcohol => 1
    case Inactivity => 2
  }

  /** The lifestyle warnings: each fires on its own flag alone (a flag is "set" when
      non-zero), and they are shown in a fixed order without repeats. */
  function LifestyleWarnings(smoke: int, alco: int, active: int): (ws: seq<Warning>)
    ensures Smoking in ws <==> smoke != 0
    ensures Alcohol in ws <==> alco != 0
    ensures Inactivity in ws <==> active == 0
    ensures forall i, j | 0 <= i < j < |ws| :: WarningRank(ws[i]) < WarningRank(ws[j])
  {
    (if smoke != 0 then [Smoking] else [])
      + (if alco != 0 then [Alcohol] else [])
      + (if active == 0 then [Inactivity] else [])
  }

  /** Changing one lifestyle flag changes at most its own warning. */
  lemma WarningsIndependent(smoke: int, alco: int, active: int, smoke': int, alco': int, active': int)
    ensures smoke == smoke' ==> (Smoking in LifestyleWarnings(smoke, alco, active)
                                 <==> Smoking in LifestyleWarnings(smoke', alco', active'))
    ensures alco == alco' ==> (Alcohol in LifestyleWarnings(smoke, alco, active)
                               <==> Alcohol in LifestyleWarnings(smoke', alco', active'))
    ensures active == active' ==> (Inactivity in LifestyleWarnings(smoke, alco, active)
                                   <==> Inactivity in LifestyleWarnings(smoke', alco', active'))
  {
  }
}

=== FILE: api.dfy ===
/** The JSON prediction endpoint of the web front end (`POST /predict`): artifact
    guards, form reading with defaults, feature derivation, scaling, inference and
    the shaping of the JSON reply. */
module Api {
  import opened Common
  import opened Numbers
  import opened Features
  import opened Artifacts

  /** The submitted form fields, by name, as the strings the client sent. */
  type Form = map<string, string>

  /** The JSON body of a reply. */
  datatype Body =
    | ErrorOnly(error: string)                                // {"error": ...}, no success flag
    | Succeeded(prediction: int, probability: Option<real>)   // {"success": true, ...}
    | Failed(error: string)                                   // {"success": false, "error": ...}

  datatype Response = Response(status: int, body: Body)

  /** The process-wide artifacts; each is absent when loading it failed at start-up. */
  datatype Server = Server(model: Option<Model>, scaler: Option<Scaler>)

  const ModelMissingMessage := "Model not loaded. Please check server logs."
  const ScalerMissingMessage := "Scaler not loaded. Please check server logs."
  /** What numpy raises for `[0]` on an empty label array. */
  const EmptyLabelsMessage := "index 0 is out of bounds for axis 0 with size 0"

  /** The values used for fields absent from the form. */
  const Defaults := PatientInput(0, 170.0, 70.0, 120.0, 80.0, 1, 1, 0, 0, 1, 45.0)

  /** `int(form.get(key, default))`. */
  function IntField(form: Form, key: string, default: int): Result<int> {
    if key in form then ParseInt(form[key]) else Success(default)
  }

  /** `float(form.get(key, default))`. */
  function FloatField(form: Form, key: string, default: real): Result<real> {
    if key in form then ParseFloat(form[key]) else Success(default)
  }

  /** The form's value for key, when present, is a numeral `int()` accepts. */
  predicate IntConverts(form: Form, key: string) {
    key in form ==> ParseInt(form[key]).Success?
  }

  /** The form's value for key, when present, is a numeral `float()` accepts. */
  predicate FloatConverts(form: Form, key: string) {
    key in form ==> ParseFloat(form[key]).Success?
  }

  /** Every field the handler reads that is present converts as the handler reads it. */
  predicate WellFormed(form: Form) {
    && IntConverts(form, "gender")
    && FloatConverts(form, "height")
    && FloatConverts(form, "weight")
    && FloatConverts(form, "ap_hi")
    && FloatConverts(form, "ap_lo")
    && IntConverts(form, "cholesterol")
    && IntConverts(form, "gluc")
    && IntConverts(form, "smoke")
    && IntConverts(form, "alco")
    && IntConverts(form, "active")
    && FloatConverts(form, "Age_Year")
  }

  /** p is what the form says, field by field, with the defaults filling the gaps. */
  predicate Reads(form: Form, p: PatientInput) {
    && IntField(form, "gender", Defaults.gender) == Success(p.gender)
    && FloatField(form, "height", Defaults.height) == Success(p.height)
    && FloatField(form, "weight", Defaults.weight) == Success(p.weight)
    && FloatField(form, "ap_hi", Defaults.apHi) == Success(p.apHi)
    && FloatField(form, "ap_lo", Defaults.apLo) == Success(p.apLo)
    && IntField(form, "cholesterol", Defaults.cholesterol) == Success(p.cholesterol)
    && IntField(form, "gluc", Defaults.gluc) == Success(p.gluc)
    && IntField(form, "smoke", Defaults.smoke) == Success(p.smoke)
    && IntField(form, "alco", Defaults.alco) == Success(p.alco)
    && IntField(form, "active", Defaults.active) == Success(p.active)
    && FloatField(form, "Age_Year", Defaults.ageYear) == Success(p.ageYear)
  }

  /** Reads the eleven fields in the handler's order; the first one that does not
      convert aborts with the conversion's error. */
  function ReadInput(form: Form): (r: Result<PatientInput>)
    ensures r.Success? <==> WellFormed(form)
    ensures r.Success? ==> Reads(form, r.value)
  {
    var gender :- IntField(form, "gender", Defaults.gender);
    var height :- FloatField(form, "height", Defaults.height);
    var weight :- FloatField(form, "weight", Defaults.weight);
    var apHi :- FloatField(form, "ap_hi", Defaults.apHi);
    var apLo :- FloatField(form, "ap_lo", Defaults.apLo);
    var cholesterol :- IntField(form, "cholesterol", Defaults.cholesterol);
    var gluc :- IntField(form, "gluc", Defaults.gluc);
    var smoke :- IntField(form, "smoke", Defaults.smoke);
    var alco :- IntField(form, "alco", Defaults.alco);
    var active :- IntField(form, "active", Defaults.active);
    var ageYear :- FloatField(form, "Age_Year", Defaults.ageYear);
    Success(PatientInput(gender, height, weight, apHi, apLo, cholesterol, gluc, smoke, alco, active, ageYear))
  }

  /** The positive-class probability in a `predict_proba` outcome: column 1 of the first
      row when that row has two or more columns, otherwise column 0. An exception, or
      indexing into an empty result, leaves none. */
  function PositiveClass(proba: Result<Matrix>): (p: Option<real>)
    ensures p.Some? <==> proba.Success? && |proba.value| > 0 && |proba.value[0]| > 0
    ensures p.Some? && |proba.value[0]| >= 2 ==> p.value == proba.value[0][1]
    ensures p.Some? && |proba.value[0]| == 1 ==> p.value == proba.value[0][0]
  {
    if proba.Failure? || |proba.value| == 0 then None
    else
      var row := proba.value[0];
      if |row| > 1 then Some(row[1])
      else if |row| == 1 then Some(row[0])
      else None
  }

  /** The probability reported in the reply: the positive-class probability as a
      percentage rounded to one decimal, or none when the model has no `predict_proba`
      or it fails. */
  function ProbabilityPercent(model: Model, scaled: Matrix): (r: Option<real>)
    ensures r.Some? <==> model.predictProba.Some? && PositiveClass(model.predictProba.value(scaled)).Some?
    ensures r.Some? ==>
      var p := PositiveClass(model.predictProba.value(scaled)).value;
      -0.05 <= r.value - p * 100.0 <= 0.05 && (r.value * 10.0).Floor as real == r.value * 10.0
  {
    match model.predictProba
    case None => None
    case Some(proba) =>
      match PositiveClass(proba(scaled))
      case None => None
      case Some(p) => Some(Round1(p * 100.0))
  }

  /** Scales the one-row batch, takes the first predicted label, and attaches the
      probability. A failure of the scaler or of `predict`, or an empty label array,
      fails the request; nothing about the probability can. */
  function Infer(model: Model, scaler: Scaler, row: Row): (r: Result<(int, Option<real>)>)
    ensures r.Success? <==>
      && scaler.transform([row]).Success?
      && model.predict(scaler.transform([row]).value).Success?
      && |model.predict(scaler.transform([row]).value).value| > 0
    ensures r.Success? ==>
      var scaled := scaler.transform([row]).value;
      && r.value.0 == model.predict(scaled).value[0]
      && r.value.1 == ProbabilityPercent(model, scaled)
  {
    var scaled :- scaler.transform([row]);
    var labels :- model.predict(scaled);
    if |labels| == 0 then Failure(EmptyLabelsMessage)
    else Success((labels[0], ProbabilityPercent(model, scaled)))
  }

  /** Everything inside the handler's `try`: read, derive, infer. */
  function Handle(model: Model, scaler: Scaler, form: Form): Result<(int, Option<real>)> {
    var input :- ReadInput(form);
    var features :- Derive(input);
    Infer(model, scaler, ToRow(features))
  }

  /** The handler. A missing model, then a missing scaler, is answered with 500 before
      the form is looked at; any exception inside the `try` becomes a 400 reply
      carrying its message; otherwise the reply is a 200 success. */
  function Predict(server: Server, form: Form): (r: Response)
    ensures server.model.None? ==> r == Response(500, ErrorOnly(ModelMissingMessage))
    ensures server.model.Some? && server.scaler.None? ==> r == Response(500, ErrorOnly(ScalerMissingMessage))
    ensures r.status == 500 <==> server.model.None? || server.scaler.None?
    ensures r.status == 500 || r.status == 400 || r.status == 200
    ensures r.status == 200 <==> r.body.Succeeded?
    ensures r.status == 400 <==> r.body.Failed?
    ensures server.model.Some? && server.scaler.Some? && !WellFormed(form) ==> r.status == 400
  {
    if server.model.None? then Response(500, ErrorOnly(ModelMissingMessage))
    else if server.scaler.None? then Response(500, ErrorOnly(ScalerMissingMessage))
    else
      match Handle(server.model.value, server.scaler.value, form)
      case Success(answer) => Response(200, Succeeded(answer.0, answer.1))
      case Failure(e) => Response(400, Failed(e))
  }

  /** An empty form reads as the defaults, whose pulse pressure is 40 and whose
      body-mass index is 70 / 1.7^2, about 24.22. */
  lemma DefaultRequest()
    ensures ReadInput(map[]) == Success(PatientInput(0, 170.0, 70.0, 120.0, 80.0, 1, 1, 0, 0, 1, 45.0))
    ensures Derive(Defaults).Success?
    ensures Derive(Defaults).value.pulsePressure == 40.0
    ensures Derive(Defaults).value.bmi == 70.0 / (1.7 * 1.7)
    ensures 24.22 <= Derive(Defaults).value.bmi < 24.23
  {
  }

  /** A request succeeds exactly when the form converts, the height is non-zero, and
      the scaler and `predict` accept the 13-column row built from it. Nothing compares
      the diastolic with the systolic pressure. */
  lemma {:induction false} SuccessCondition(model: Model, scaler: Scaler, form: Form)
    ensures var r := Predict(Server(Some(model), Some(scaler)), form);
      r.status == 200 <==>
        && ReadInput(form).Success?
        && ReadInput(form).value.height != 0.0
        && var row := ToRow(Derive(ReadInput(form).value).value);
           && scaler.transform([row]).Success?
           && model.predict(scaler.transform([row]).value).Success?
           && |model.predict(scaler.transform([row]).value).value| > 0
  {
  }

  /** In a successful reply the label is the first label `predict` gives for the scaled
      row of the form's features, laid out column by column, and the probability is the
      rounded percentage `predict_proba` yields on that scaled row. */
  lemma {:induction false} SuccessfulReply(server: Server, form: Form)
    requires Predict(server, form).status == 200
    ensures server.model.Some? && server.scaler.Some?
    ensures ReadInput(form).Success? && Derive(ReadInput(form).value).Success?
    ensures
      var features := Derive(ReadInput(form).value).value;
      var row := ToRow(features);
      && (forall i | 0 <= i < |FeatureColumns| :: Feature(features, FeatureColumns[i]) == Some(row[i]))
      && Reads(form, features.input)
      && server.scaler.value.transform([row]).Success?
      && Predict(server, form).body.prediction
           == server.model.value.predict(server.scaler.value.transform([row]).value).value[0]
      && Predict(server, form).body.probability
           == ProbabilityPercent(server.model.value, server.scaler.value.transform([row]).value)
  {
    RowFollowsColumns(Derive(ReadInput(form).value).value);
  }

  /** Whatever `predict_proba` does (absent, raising, or returning anything) the status
      and the label of the reply stay the same. */
  lemma {:induction false} ProbabilityNeverDecides(
    model: Model, scaler: Scaler, form: Form, other: Option<Matrix -> Result<Matrix>>)
    ensures
      var r := Predict(Server(Some(model), Some(scaler)), form);
      var r' := Predict(Server(Some(model.(predictProba := other)), Some(scaler)), form);
      && r.status == r'.status
      && (r.body.Succeeded? ==> r'.body.prediction == r.body.prediction)
  {
  }

  /** When `predict_proba` raises, a request that gets that far still succeeds, with a
      null probability. */
  lemma {:induction false} ProbabilityFailureIsNull(model: Model, scaler: Scaler, form: Form)
    requires model.predictProba.Some?
    requires forall m: Matrix :: model.predictProba.value(m).Failure?
    ensures var r := Predict(Server(Some(model), Some(scaler)), form);
      r.status == 200 ==> r.body.probability == None
  {
  }

  /** A reported probability, when the classifier's probability is within [0, 1], is
      a percentage within [0, 100]. */
  lemma ProbabilityIsPercentage(model: Model, scaled: Matrix)
    requires model.predictProba.Some?
    requires var p := PositiveClass(model.predictProba.value(scaled)); p.Some? && 0.0 <= p.value <= 1.0
    ensures ProbabilityPercent(model, scaled).Some?
    ensures 0.0 <= ProbabilityPercent(model, scaled).value <= 100.0
  {
    Round1Percent(PositiveClass(model.predictProba.value(scaled)).value);
  }

  /** A zero height is answered with 400 and Python's division-by-zero message. */
  lemma ZeroHeightRejected(model: Model, scaler: Scaler, form: Form)
    requires WellFormed(form)
    requires ReadInput(form).value.height == 0.0
    ensures Predict(Server(Some(model), Some(scaler)), form) == Response(400, Failed(ZeroDivisionMessage))
  {
  }

  /** A diastolic pressure above the systolic one is accepted: the request is read and
      the row sent to the scaler carries the negative pulse pressure. */
  lemma InvertedPressureAccepted(hi: nat, lo: nat)
    requires hi < lo
    ensures var form := map["ap_hi" := NatToString(hi), "ap_lo" := NatToString(lo)];
      && ReadInput(form).Success?
      && Derive(ReadInput(form).value).Success?
      && var row := ToRow(Derive(ReadInput(form).value).value);
         row[3] == hi as real && row[4] == lo as real && row[12] == hi as real - lo as real < 0.0
  {
    var form := map["ap_hi" := NatToString(hi), "ap_lo" := NatToString(lo)];
    assert "gender" !in form && "height" !in form && "weight" !in form;
    assert "cholesterol" !in form && "gluc" !in form && "smoke" !in form;
    assert "alco" !in form && "active" !in form && "Age_Year" !in form;
    ParseFloatOfNatString(hi);
    ParseFloatOfNatString(lo);
    assert WellFormed(form);
    var p := ReadInput(form).value;
    assert Reads(form, p);
    assert p.apHi == hi as real && p.apLo == lo as real && p.height == 170.0;
  }

  /** The fields the handler reads as `int`, and those it reads as `float`. */
  const IntKeys: set<string> := {"gender", "cholesterol", "gluc", "smoke", "alco", "active"}
  const FloatKeys: set<string> := {"height", "weight", "ap_hi", "ap_lo", "Age_Year"}

  /** The keys read as `int` are exactly the `int` fields of the reading order, and
      likewise for `float`. */
  lemma KeySets()
    ensures IntKeys == set i | 0 <= i < |ReadOrder| && ReadOrder[i].1 == ToInt :: ReadOrder[i].0
    ensures FloatKeys == set i | 0 <= i < |ReadOrder| && ReadOrder[i].1 == ToFloat :: ReadOrder[i].0
  {
    assert ReadOrder[0].0 in IntKeys && ReadOrder[5].0 in IntKeys && ReadOrder[6].0 in IntKeys;
    assert ReadOrder[7].0 in IntKeys && ReadOrder[8].0 in IntKeys && ReadOrder[9].0 in IntKeys;
    assert ReadOrder[1].0 in FloatKeys && ReadOrder[2].0 in FloatKeys && ReadOrder[3].0 in FloatKeys;
    assert ReadOrder[4].0 in FloatKeys && ReadOrder[10].0 in FloatKeys;
  }

  /** A character no numeral contains: neither a digit, nor a decimal point, nor a sign. */
  predicate Foreign(c: char) {
    !IsDigit(c) && c != '.' && !IsSign(c)
  }

  /** A field the handler reads, holding a letter (or any other foreign character), is
      answered with 400, whatever the other fields say. */
  lemma NonNumericRejected(model: Model, scaler: Scaler, form: Form, key: string, i: nat)
    requires key in IntKeys + FloatKeys && key in form
    requires i < |form[key]| && Foreign(form[key][i])
    ensures Predict(Server(Some(model), Some(scaler)), form).status == 400
    ensures Predict(Server(Some(model), Some(scaler)), form).body.Failed?
  {
    assert !IntConverts(form, key) || !FloatConverts(form, key) by {
      assert !IntShape(form[key]) && !FloatShape(form[key]);
    }
    assert !WellFormed(form);
  }

  /** A form carrying only one field, which holds a foreign character, is answered with
      400 and the conversion's own ValueError message. */
  lemma SingleNonNumericField(model: Model, scaler: Scaler, key: string, v: string, i: nat)
    requires key in IntKeys + FloatKeys
    requires i < |v| && Foreign(v[i])
    ensures Predict(Server(Some(model), Some(scaler)), map[key := v])
         == Response(400, Failed(if key in IntKeys then IntErrorMessage(v) else FloatErrorMessage(v)))
  {
    assert !IntShape(v) && !FloatShape(v);
  }

  /** How the handler converts a field: `int(...)` or `float(...)`. */
  datatype Conversion = ToInt | ToFloat

  /** The fields in the order the handler reads them, each with its conversion. */
  const ReadOrder: seq<(string, Conversion)> := [
    ("gender", ToInt), ("height", ToFloat), ("weight", ToFloat), ("ap_hi", ToFloat),
    ("ap_lo", ToFloat), ("cholesterol", ToInt), ("gluc", ToInt), ("smoke", ToInt),
    ("alco", ToInt), ("active", ToInt), ("Age_Year", ToFloat)]

  /** The form's value for the field, when present, converts as the handler reads it. */
  predicate Converts(form: Form, field: (string, Conversion)) {
    match field.1
    case ToInt => IntConverts(form, field.0)
    case ToFloat => FloatConverts(form, field.0)
  }

  /** The ValueError text of the field's conversion applied to v. */
  function ConversionError(field: (string, Conversion), v: string): string {
    match field.1
    case ToInt => IntErrorMessage(v)
    case ToFloat => FloatErrorMessage(v)
  }

  /** ReadOrder[k] is the first field, in reading order, that does not convert. */
  predicate FirstUnconverted(form: Form, k: nat) {
    && k < |ReadOrder|
    && (forall j | 0 <= j < k :: Converts(form, ReadOrder[j]))
    && !Converts(form, ReadOrder[k])
  }

  /** A field that does not convert has a first one, at or before it, that does not. */
  lemma {:induction false} FirstUnconvertedUpTo(form: Form, j: nat)
    requires j < |ReadOrder| && !Converts(form, ReadOrder[j])
    ensures exists k: nat | k <= j :: FirstUnconverted(form, k)
  {
    if forall i | 0 <= i < j :: Converts(form, ReadOrder[i]) {
      assert FirstUnconverted(form, j);
    } else {
      var i :| 0 <= i < j && !Converts(form, ReadOrder[i]);
      FirstUnconvertedUpTo(form, i);
    }
  }

  /** A form that does not convert has a first field, in reading order, that does not. */
  lemma SomeFirstUnconverted(form: Form)
    requires !WellFormed(form)
    ensures exists k: nat :: FirstUnconverted(form, k)
  {
    var j: nat :=
      if !Converts(form, ReadOrder[0]) then 0
      else if !Converts(form, ReadOrder[1]) then 1
      else if !Converts(form, ReadOrder[2]) then 2
      else if !Converts(form, ReadOrder[3]) then 3
      else if !Converts(form, ReadOrder[4]) then 4
      else if !Converts(form, ReadOrder[5]) then 5
      else if !Converts(form, ReadOrder[6]) then 6
      else if !Converts(form, ReadOrder[7]) then 7
      else if !Converts(form, ReadOrder[8]) then 8
      else if !Converts(form, ReadOrder[9]) then 9
      else 10;
    FirstUnconvertedUpTo(form, j);
  }

  /** When ReadOrder[k] is the first field that does not convert, reading stops there
      with that field's ValueError. */
  lemma FailsAt(form: Form, k: nat)
    requires FirstUnconverted(form, k)
    ensures ReadOrder[k].0 in form
    ensures ReadInput(form) == Failure(ConversionError(ReadOrder[k], form[ReadOrder[k].0]))
  {
    assert k > 0 ==> Converts(form, ReadOrder[0]);
    assert k > 1 ==> Converts(form, ReadOrder[1]);
    assert k > 2 ==> Converts(form, ReadOrder[2]);
    assert k > 3 ==> Converts(form, ReadOrder[3]);
    assert k > 4 ==> Converts(form, ReadOrder[4]);
    assert k > 5 ==> Converts(form, ReadOrder[5]);
    assert k > 6 ==> Converts(form, ReadOrder[6]);
    assert k > 7 ==> Converts(form, ReadOrder[7]);
    assert k > 8 ==> Converts(form, ReadOrder[8]);
    assert k > 9 ==> Converts(form, ReadOrder[9]);
  }

  /** A form that does not convert is rejected with the ValueError of the first field,
      in reading order, that does not convert; the fields after it are never looked at. */
  lemma ReadInputStopsAtFirstBadField(form: Form)
    ensures ReadInput(form).Failure? <==> exists k: nat :: FirstUnconverted(form, k)
    ensures forall k: nat | FirstUnconverted(form, k) ::
      && ReadOrder[k].0 in form
      && ReadInput(form) == Failure(ConversionError(ReadOrder[k], form[ReadOrder[k].0]))
  {
    forall k: nat | FirstUnconverted(form, k)
      ensures ReadOrder[k].0 in form
      ensures ReadInput(form) == Failure(ConversionError(ReadOrder[k], form[ReadOrder[k].0]))
    {
      FailsAt(form, k);
    }
    if ReadInput(form).Failure? {
      SomeFirstUnconverted(form);
    }
  }

  /** The first field that does not convert decides the 400 reply and its message. */
  lemma BadFieldReply(model: Model, scaler: Scaler, form: Form, k: nat)
    requires FirstUnconverted(form, k)
    ensures Predict(Server(Some(model), Some(scaler)), form)
         == Response(400, Failed(ConversionError(ReadOrder[k], form[ReadOrder[k].0])))
  {
    FailsAt(form, k);
  }

  /** Once the form is read and the height is non-zero, a 400 reply carries the message of
      the call that raised: the scaler's, then `predict`'s, then numpy's for an empty label
      array. */
  lemma InferenceErrorReply(model: Model, scaler: Scaler, form: Form)
    requires ReadInput(form).Success? && ReadInput(form).value.height != 0.0
    ensures
      var row := ToRow(Derive(ReadInput(form).value).value);
      var r := Predict(Server(Some(model), Some(scaler)), form);
      && (scaler.transform([row]).Failure? ==> r == Response(400, Failed(scaler.transform([row]).error)))
      && (scaler.transform([row]).Success? && model.predict(scaler.transform([row]).value).Failure? ==>
            r == Response(400, Failed(model.predict(scaler.transform([row]).value).error)))
      && (scaler.transform([row]).Success? && model.predict(scaler.transform([row]).value).Success?
          && |model.predict(scaler.transform([row]).value).value| == 0 ==>
            r == Response(400, Failed(EmptyLabelsMessage)))
  {
  }
}

=== FILE: artifacts.dfy ===
/** The two persisted scikit-learn objects, kept opaque: each is only the functions
    the front ends call on it. Every call may raise; a raised exception is the
    `Failure` carrying its message. */
module Artifacts {
  import opened Common

  /** A fitted classifier. `featureNames` is its `feature_names_in_` when it has one,
      `predict` gives one class label per input row, and `predictProba` (absent when
      the estimator has no such attribute) gives one row of class probabilities per
      input row. */
  datatype Model = Model(
    featureNames: Option<seq<string>>,
    predict: Matrix -> Result<seq<int>>,
    predictProba: Option<Matrix -> Result<Matrix>>)

  /** A fitted per-column standardiser: `transform` maps a batch of rows to scaled rows. */
  datatype Scaler = Scaler(transform: Matrix -> Result<Matrix>)
}

=== FILE: common.dfy ===
/** Failure-compatible wrappers and the tabular shapes the classifier works on. */
module Common {

  /** A value that may be absent (Python's `None`). */
  datatype Option<+T> = None | Some(value: T)

  /** The outcome of a step that may raise: the raised exception is kept as its message. */
  datatype Result<+T> = Success(value: T) | Failure(error: string) {

    predicate IsFailure() {
      Failure?
    }

    function PropagateFailure<U>(): Result<U>
      requires Failure?
    {
      Failure(error)
    }

    function Extract(): T
      requires Success?
    {
      value
    }
  }

  /** No element occurs twice. */
  predicate Distinct<T(==)>(xs: seq<T>) {
    forall i, j | 0 <= i < j < |xs| :: xs[i] != xs[j]
  }

  /** One row of numbers, in column order. */
  type Row = seq<real>

  /** A batch of rows (a 2-D numpy array or a one-row data frame). */
  type Matrix = seq<Row>
}

=== FILE: dashboard.dfy ===
/** The interactive dashboard: one top-to-bottom run of the script for the current
    widget values. It maps the categorical widget labels to codes, derives body-mass
    index and pulse pressure, and refuses to predict without a model or when the
    diastolic pressure exceeds the systolic. Otherwise it aligns the columns with
    the model's feature names, asks the model for the positive-class probability,
    and classifies everything into the displayed advice. */
module Dashboard {
  import opened Common
  import opened Numbers
  import opened Features
  import opened Artifacts
  import opened Advice
  import Api

  /** The widget values of one run. The numeric inputs are integers except the weight. */
  datatype Widgets = Widgets(
    genderLabel: string,
    age: int,
    height: int,
    weight: real,
    apHi: int,
    apLo: int,
    cholesterolLabel: string,
    glucoseLabel: string,
    smokeAnswer: string,
    alcoAnswer: string,
    activeAnswer: string)

  const GenderOptions: seq<string> := ["Female", "Male"]
  const LevelOptions: seq<string> := ["Normal", "Above Normal", "Well Above Normal"]
  const AnswerOptions: seq<string> := ["No", "Yes"]

  /** What the widgets themselves guarantee: option lists and numeric bounds. */
  predicate WidgetDomain(w: Widgets) {
    && w.genderLabel in GenderOptions
    && 1 <= w.age <= 120
    && 100 <= w.height <= 250
    && 30.0 <= w.weight <= 300.0
    && 80 <= w.apHi <= 250
    && 40 <= w.apLo <= 150
    && w.cholesterolLabel in LevelOptions
    && w.glucoseLabel in LevelOptions
    && w.smokeAnswer in AnswerOptions
    && w.alcoAnswer in AnswerOptions
    && w.activeAnswer in AnswerOptions
  }

  /** Male is 1, anything else 0; for the two options the code is the option's position. */
  function GenderCode(choice: string): (c: int)
    ensures c == 1 <==> choice == "Male"
    ensures c == 0 <==> choice != "Male"
    ensures choice in GenderOptions ==> GenderOptions[c] == choice
  {
    if choice == "Male" then 1 else 0
  }

  /** The dictionary lookup for cholesterol and glucose labels: Normal 1, Above Normal 2,
      Well Above Normal 3, i.e. one more than the choice's position; any other choice is
      a KeyError. */
  function LevelCode(choice: string): (c: Option<int>)
    ensures c.Some? <==> choice in LevelOptions
    ensures c.Some? ==> 1 <= c.value <= 3 && LevelOptions[c.value - 1] == choice
  {
    if choice == "Normal" then Some(1)
    else if choice == "Above Normal" then Some(2)
    else if choice == "Well Above Normal" then Some(3)
    else None
  }

  /** Yes is 1, anything else 0; for the two options the code is the option's position. */
  function AnswerCode(answer: string): (c: int)
    ensures c == 1 <==> answer == "Yes"
    ensures c == 0 <==> answer != "Yes"
    ensures answer in AnswerOptions ==> AnswerOptions[c] == answer
  {
    if answer == "Yes" then 1 else 0
  }

  /** Cholesterol and glucose codes map back to the labels they came from. */
  lemma LevelCodeRoundTrip(code: int)
    requires 1 <= code <= 3
    ensures LevelCode(LevelOptions[code - 1]) == Some(code)
  {
  }

  /** A one-row data frame: column names and the row's values, position by position. */
  datatype Frame = Frame(columns: seq<string>, values: Row)

  /** The columns of the dashboard's dictionary, in insertion order. Slot 10 is
      "age_years" where the scaler's columns have "Age_Year". */
  const DashboardColumns: seq<string> := [
    "gender", "height", "weight", "ap_hi", "ap_lo", "cholesterol", "gluc",
    "smoke", "alco", "active", "age_years", "bmi", "pulse_pressure"]

  /** The value under a column name, or the fill value 0 when there is none. The
      dashboard's frames have distinct columns, so "the first column so named" is the
      only one. */
  function Lookup(columns: seq<string>, values: Row, name: string): (v: real)
    requires |columns| == |values|
    ensures name !in columns ==> v == 0.0
    ensures forall i | 0 <= i < |columns| && columns[i] == name && name !in columns[..i] :: v == values[i]
  {
    if |columns| == 0 then 0.0
    else if columns[0] == name then values[0]
    else
      var v := Lookup(columns[1..], values[1..], name);
      assert forall i | 1 <= i < |columns| :: columns[1..][i - 1] == columns[i] && columns[1..][..i - 1] == columns[1..i];
      v
  }

  /** `reindex(columns=names, fill_value=0)`: one column per requested name, in the
      requested order, carrying the value under that name or 0. */
  function Reindex(frame: Frame, names: seq<string>): (r: Frame)
    requires |frame.columns| == |frame.values|
    ensures r.columns == names && |r.values| == |names|
    ensures forall i | 0 <= i < |names| :: r.values[i] == Lookup(frame.columns, frame.values, names[i])
  {
    if |names| == 0 then Frame([], [])
    else
      var rest := Reindex(frame, names[1..]);
      Frame(names, [Lookup(frame.columns, frame.values, names[0])] + rest.values)
  }

  /** Reindexing a frame by its own (distinct) columns leaves it unchanged. */
  lemma ReindexOwnColumns(frame: Frame)
    requires |frame.columns| == |frame.values|
    requires Distinct(frame.columns)
    ensures Reindex(frame, frame.columns) == frame
  {
    var r := Reindex(frame, frame.columns);
    forall i | 0 <= i < |frame.columns|
      ensures r.values[i] == frame.values[i]
    {
      assert frame.columns[i] !in frame.columns[..i];
    }
  }

  /** Reindexing by the frame's own distinct columns with one name k replaced by a name
      the frame lacks keeps every value except the one at k, which becomes 0. */
  lemma ReindexOneRenamed(frame: Frame, k: nat, name: string)
    requires |frame.columns| == |frame.values|
    requires Distinct(frame.columns)
    requires k < |frame.columns| && name !in frame.columns
    ensures Reindex(frame, frame.columns[k := name]).values == frame.values[k := 0.0]
  {
    var r := Reindex(frame, frame.columns[k := name]);
    forall i | 0 <= i < |frame.columns| && i != k
      ensures r.values[i] == frame.values[i]
    {
      assert frame.columns[i] !in frame.columns[..i];
    }
  }

  lemma DashboardColumnsDistinct()
    ensures Distinct(DashboardColumns)
  {
  }

  /** Aligned to the scaler's column names, the dashboard's frame keeps every value but
      the age, which no column of the frame supplies and which is therefore filled with 0. */
  lemma AgeLostUnderScalerColumns(f: Frame)
    requires f.columns == DashboardColumns && |f.values| == 13
    ensures Reindex(f, FeatureColumns).values == f.values[10 := 0.0]
  {
    DashboardColumnsDistinct();
    assert FeatureColumns == DashboardColumns[10 := "Age_Year"];
    assert "Age_Year" !in DashboardColumns;
    ReindexOneRenamed(f, 10, "Age_Year");
  }

  /** Everything the dashboard shows after a successful prediction. */
  datatype Assessment = Assessment(
    modelInput: Frame,
    risk: real,
    tier: RiskTier,
    recommendation: Recommendation,
    bmi: real,
    bmiBand: BmiBand,
    pressure: PressureBand,
    pulsePressure: int,
    pulse: PulseBand,
    cholesterol: LevelAdvice,
    glucose: LevelAdvice,
    lifestyle: seq<Warning>)

  /** How one run of the script ends. */
  datatype Outcome =
    | Crashed(error: string)   // an uncaught exception stops the script
    | Idle                     // the button was not pressed
    | ModelMissing             // "Model not loaded."
    | PressureRejected         // "Diastolic BP must be less than Systolic BP."
    | Shown(assessment: Assessment)

  /** Python's AttributeError on an estimator without `predict_proba`; Python's own
      message starts with the estimator's quoted class name, which the model does not
      carry. */
  const NoProbaMessage := "object has no attribute 'predict_proba'"

  /** The risk: column 1 of the first row `predict_proba` returns for the model input. */
  function RiskOf(model: Model, input: Row): (r: Result<real>)
    ensures r.Success? <==>
      && model.predictProba.Some?
      && model.predictProba.value([input]).Success?
      && |model.predictProba.value([input]).value| > 0
      && |model.predictProba.value([input]).value[0]| >= 2
    ensures r.Success? ==> r.value == model.predictProba.value([input]).value[0][1]
  {
    match model.predictProba
    case None => Failure(NoProbaMessage)
    case Some(proba) =>
      var m :- proba([input]);
      if |m| == 0 then Failure("index 0 is out of bounds for axis 0 with size 0")
      else if |m[0]| < 2 then Failure("index 1 is out of bounds for axis 0 with size " + IntToString(|m[0]|))
      else Success(m[0][1])
  }

  /** The dashboard and the web endpoint read the same positive-class probability: the
      dashboard's risk, when it has one, is the one the endpoint would report (before
      its scaling to a percentage). They differ only on a one-column `predict_proba`
      row, where the endpoint falls back to column 0 and the dashboard raises. */
  lemma RiskAgreesWithEndpoint(model: Model, input: Row)
    requires model.predictProba.Some?
    ensures var endpoint := Api.PositiveClass(model.predictProba.value([input]));
      && (RiskOf(model, input).Success? ==> endpoint == Some(RiskOf(model, input).value))
      && (endpoint.Some? && |model.predictProba.value([input]).value[0]| >= 2 ==> RiskOf(model, input).Success?)
      && (endpoint.Some? && |model.predictProba.value([input]).value[0]| == 1 ==> RiskOf(model, input).Failure?)
  {
  }

  /** The codes and measures the script computes on every run, before the button. */
  datatype Measures = Measures(
    gender: int,
    bmi: real,
    pulsePressure: int,
    cholesterol: int,
    gluc: int,
    smoke: int,
    alco: int,
    active: int)

  /** Reading the widgets. The body-mass-index division raises ZeroDivisionError on a
      zero height and the label dictionaries raise KeyError on an unknown label; the
      widgets' own domain rules all three out. */
  function ReadWidgets(w: Widgets): (r: Result<Measures>)
    ensures r.Success? <==> w.height != 0 && w.cholesterolLabel in LevelOptions && w.glucoseLabel in LevelOptions
    ensures WidgetDomain(w) ==> r.Success?
    ensures r.Success? ==> r.value.bmi * ((w.height as real / 100.0) * (w.height as real / 100.0)) == w.weight
    ensures r.Success? ==> r.value.pulsePressure + w.apLo == w.apHi
    ensures r.Success? ==> 1 <= r.value.cholesterol <= 3 && LevelOptions[r.value.cholesterol - 1] == w.cholesterolLabel
    ensures r.Success? ==> 1 <= r.value.gluc <= 3 && LevelOptions[r.value.gluc - 1] == w.glucoseLabel
    ensures r.Success? ==> (r.value.gender == 1 <==> w.genderLabel == "Male") && 0 <= r.value.gender <= 1
    ensures r.Success? ==> (r.value.smoke == 1 <==> w.smokeAnswer == "Yes") && 0 <= r.value.smoke <= 1
    ensures r.Success? ==> (r.value.alco == 1 <==> w.alcoAnswer == "Yes") && 0 <= r.value.alco <= 1
    ensures r.Success? ==> (r.value.active == 1 <==> w.activeAnswer == "Yes") && 0 <= r.value.active <= 1
  {
    var gender := GenderCode(w.genderLabel);
    var bmi :- Bmi(w.weight, w.height as real);
    var pulsePressure := w.apHi - w.apLo;
    match (LevelCode(w.cholesterolLabel), LevelCode(w.glucoseLabel))
    case (None, _) => Failure("'" + w.cholesterolLabel + "'")
    case (_, None) => Failure("'" + w.glucoseLabel + "'")
    case (Some(cholesterol), Some(gluc)) =>
      Success(Measures(gender, bmi, pulsePressure, cholesterol, gluc,
        AnswerCode(w.smokeAnswer), AnswerCode(w.alcoAnswer), AnswerCode(w.activeAnswer)))
  }

  /** The dashboard's dictionary as a frame, in its insertion order. */
  function DashboardFrame(ms: Measures, w: Widgets): (f: Frame)
    ensures f.columns == DashboardColumns && |f.values| == 13
  {
    Frame(DashboardColumns,
      [ ms.gender as real, w.height as real, w.weight, w.apHi as real, w.apLo as real,
        ms.cholesterol as real, ms.gluc as real, ms.smoke as real, ms.alco as real,
        ms.active as real, w.age as real, ms.bmi, ms.pulsePressure as real ])
  }

  /** The frame the model receives: aligned to its feature names when it has them. */
  function ModelInput(m: Model, frame: Frame): (f: Frame)
    requires |frame.columns| == |frame.values|
    ensures m.featureNames.Some? ==> f.columns == m.featureNames.value
    ensures m.featureNames.None? ==> f == frame
    ensures m.featureNames.Some? ==>
      && |f.values| == |m.featureNames.value|
      && forall i | 0 <= i < |f.values| :: f.values[i] == Lookup(frame.columns, frame.values, m.featureNames.value[i])
    ensures |f.columns| == |f.values|
  {
    if m.featureNames.Some? then Reindex(frame, m.featureNames.value) else frame
  }

  /** The prediction branch: align the frame, call `predict` (its labels go unused, but
      it may raise), read the risk from `predict_proba`, and classify. */
  function Assess(m: Model, ms: Measures, w: Widgets): (r: Result<Assessment>)
    ensures r.Success? ==>
      var input := ModelInput(m, DashboardFrame(ms, w));
      && m.predict([input.values]).Success?
      && r.value.modelInput == input
      && RiskOf(m, input.values) == Success(r.value.risk)
      && r.value.tier == TierOf(r.value.risk)
      && r.value.recommendation == RecommendationFor(r.value.tier)
      && r.value.bmi == ms.bmi && r.value.pulsePressure == ms.pulsePressure
    ensures r.Success? <==>
      var input := ModelInput(m, DashboardFrame(ms, w));
      m.predict([input.values]).Success? && RiskOf(m, input.values).Success?
    ensures r.Success? ==>
      && (r.value.bmiBand == Underweight <==> ms.bmi < 18.5)
      && (r.value.bmiBand == HealthyWeight <==> 18.5 <= ms.bmi <= 24.9)
      && (r.value.bmiBand == Overweight <==> 24.9 < ms.bmi <= 29.9)
      && (r.value.bmiBand == Obese <==> 29.9 < ms.bmi)
    ensures r.Success? ==>
      && (r.value.pressure == Hypertension <==> w.apHi >= 140 || w.apLo >= 90)
      && (r.value.pressure == NormalPressure <==> w.apHi < 130 && w.apLo < 85)
    ensures r.Success? ==>
      && (r.value.pulse == WidePulse <==> ms.pulsePressure > 60)
      && (r.value.pulse == LowPulse <==> ms.pulsePressure < 30)
    ensures r.Success? ==>
      && (r.value.cholesterol == LevelHigh <==> ms.cholesterol == 3)
      && (r.value.cholesterol == LevelSlightlyHigh <==> ms.cholesterol == 2)
      && (r.value.glucose == LevelHigh <==> ms.gluc == 3)
      && (r.value.glucose == LevelSlightlyHigh <==> ms.gluc == 2)
    ensures r.Success? ==>
      && (Smoking in r.value.lifestyle <==> ms.smoke != 0)
      && (Alcohol in r.value.lifestyle <==> ms.alco != 0)
      && (Inactivity in r.value.lifestyle <==> ms.active == 0)
  {
    var input := ModelInput(m, DashboardFrame(ms, w));
    var _ :- m.predict([input.values]);
    var risk :- RiskOf(m, input.values);
    RecommendationMatchesTier(risk);
    Success(Assessment(
      input, risk, TierOf(risk), RecommendationOf(risk),
      ms.bmi, BmiBandOf(ms.bmi), PressureBandOf(w.apHi as real, w.apLo as real),
      ms.pulsePressure, PulseBandOf(ms.pulsePressure as real),
      LevelAdviceOf(ms.cholesterol), LevelAdviceOf(ms.gluc),
      LifestyleWarnings(ms.smoke, ms.alco, ms.active)))
  }

  /** One run of the script. The measures and codes are computed on every run, before
      the button is looked at; prediction happens only when the button was pressed, a
      model is loaded and the diastolic pressure does not exceed the systolic. */
  function Run(model: Option<Model>, w: Widgets, pressed: bool): (r: Outcome)
    ensures r.Shown? ==> pressed && model.Some? && w.apLo <= w.apHi
    ensures r.Shown? ==> r.assessment.pulsePressure >= 0 && r.assessment.pulsePressure == w.apHi - w.apLo
    ensures r.Shown? ==> r.assessment.recommendation == RecommendationFor(r.assessment.tier)
    ensures r.Shown? ==> r.assessment.tier == TierOf(r.assessment.risk)
    ensures r.Shown? ==> r.assessment.recommendation == RecommendationOf(r.assessment.risk)
    ensures r.Shown? ==> r.assessment.bmi * ((w.height as real / 100.0) * (w.height as real / 100.0)) == w.weight
    ensures r.Shown? ==> RiskOf(model.value, r.assessment.modelInput.values) == Success(r.assessment.risk)
    ensures r.Shown? && model.value.featureNames.Some? ==> r.assessment.modelInput.columns == model.value.featureNames.value
    ensures r.Shown? && model.value.featureNames.None? ==> r.assessment.modelInput.columns == DashboardColumns
    ensures r.Shown? ==> ReadWidgets(w).Success?
    ensures r.Shown? && model.value.featureNames.Some? && ReadWidgets(w).Success? ==>
      var frame := DashboardFrame(ReadWidgets(w).value, w);
      var names := model.value.featureNames.value;
      && |r.assessment.modelInput.values| == |names|
      && forall i | 0 <= i < |names| :: r.assessment.modelInput.values[i] == Lookup(frame.columns, frame.values, names[i])
    ensures r == PressureRejected ==> pressed && model.Some? && w.apLo > w.apHi
    ensures r == ModelMissing ==> pressed && model.None?
    ensures r == Idle ==> !pressed
    ensures ReadWidgets(w).Failure? ==> r == Crashed(ReadWidgets(w).error)
    ensures ReadWidgets(w).Success? && pressed && model.Some? && w.apLo <= w.apHi ==>
      var input := ModelInput(model.value, DashboardFrame(ReadWidgets(w).value, w)).values;
      (r.Shown? <==> model.value.predict([input]).Success? && RiskOf(model.value, input).Success?)
  {
    match ReadWidgets(w)
    case Failure(e) => Crashed(e)
    case Success(ms) =>
      if !pressed then Idle
      else if model.None? then ModelMissing
      else if w.apLo > w.apHi then PressureRejected
      else
        match Assess(model.value, ms, w)
        case Failure(e) => Crashed(e)
        case Success(a) => Shown(a)
  }

  /** Within the widgets' domain, nothing before the prediction can fail: a run either
      stops at a guard, or reaches the model and shows the result unless `predict` or
      `predict_proba` raises, in which case that exception ends the script. */
  lemma {:induction false} WidgetsReachTheModel(model: Option<Model>, w: Widgets, pressed: bool)
    requires WidgetDomain(w)
    ensures Run(model, w, pressed).Crashed? ==> pressed && model.Some? && w.apLo <= w.apHi
    ensures !pressed ==> Run(model, w, pressed) == Idle
    ensures pressed && model.None? ==> Run(model, w, pressed) == ModelMissing
    ensures pressed && model.Some? && w.apLo > w.apHi ==> Run(model, w, pressed) == PressureRejected
    ensures pressed && model.Some? && w.apLo <= w.apHi ==>
      var input := ModelInput(model.value, DashboardFrame(ReadWidgets(w).value, w)).values;
      var labels := model.value.predict([input]);
      var risk := RiskOf(model.value, input);
      && (Run(model, w, pressed).Shown? <==> labels.Success? && risk.Success?)
      && (labels.Failure? ==> Run(model, w, pressed) == Crashed(labels.error))
      && (labels.Success? && risk.Failure? ==> Run(model, w, pressed) == Crashed(risk.error))
  {
    assert ReadWidgets(w).Success?;
  }

  /** The advice shown after a prediction classifies this run's own widget values, on the
      dashboard's thresholds and labels. */
  lemma {:induction false} ShownAdvice(model: Option<Model>, w: Widgets, pressed: bool)
    requires Run(model, w, pressed).Shown?
    ensures var a := Run(model, w, pressed).assessment;
      && (a.bmiBand == Underweight <==> a.bmi < 18.5)
      && (a.bmiBand == HealthyWeight <==> 18.5 <= a.bmi <= 24.9)
      && (a.bmiBand == Overweight <==> 24.9 < a.bmi <= 29.9)
      && (a.bmiBand == Obese <==> 29.9 < a.bmi)
      && a.bmi * ((w.height as real / 100.0) * (w.height as real / 100.0)) == w.weight
    ensures var a := Run(model, w, pressed).assessment;
      && (a.pressure == Hypertension <==> w.apHi >= 140 || w.apLo >= 90)
      && (a.pressure == ElevatedPressure <==> w.apHi < 140 && w.apLo < 90 && (w.apHi >= 130 || w.apLo >= 85))
      && (a.pressure == NormalPressure <==> w.apHi < 130 && w.apLo < 85)
    ensures var a := Run(model, w, pressed).assessment;
      && (a.pulse == WidePulse <==> w.apHi - w.apLo > 60)
      && (a.pulse == LowPulse <==> w.apHi - w.apLo < 30)
      && (a.pulse == NormalPulse <==> 30 <= w.apHi - w.apLo <= 60)
    ensures var a := Run(model, w, pressed).assessment;
      && (a.cholesterol == LevelHigh <==> w.cholesterolLabel == "Well Above Normal")
      && (a.cholesterol == LevelSlightlyHigh <==> w.cholesterolLabel == "Above Normal")
      && (a.cholesterol == LevelNormal <==> w.cholesterolLabel == "Normal")
      && (a.glucose == LevelHigh <==> w.glucoseLabel == "Well Above Normal")
      && (a.glucose == LevelSlightlyHigh <==> w.glucoseLabel == "Above Normal")
      && (a.glucose == LevelNormal <==> w.glucoseLabel == "Normal")
    ensures var a := Run(model, w, pressed).assessment;
      && (Smoking in a.lifestyle <==> w.smokeAnswer == "Yes")
      && (Alcohol in a.lifestyle <==> w.alcoAnswer == "Yes")
      && (Inactivity in a.lifestyle <==> w.activeAnswer != "Yes")
  {
    var ms := ReadWidgets(w).value;
    var a := Run(model, w, pressed).assessment;
    assert Assess(model.value, ms, w) == Success(a);
  }

  /** A model without feature names receives the dashboard's values in the scaler's
      column order, the same row the web endpoint builds (with the age in the Age_Year
      slot), but unscaled. */
  lemma {:induction false} SameLayoutAsEndpoint(model: Option<Model>, w: Widgets, pressed: bool)
    requires Run(model, w, pressed).Shown?
    requires model.value.featureNames.None?
    ensures ReadWidgets(w).Success?
    ensures
      var ms := ReadWidgets(w).value;
      var p := PatientInput(
        ms.gender, w.height as real, w.weight, w.apHi as real, w.apLo as real,
        ms.cholesterol, ms.gluc, ms.smoke, ms.alco, ms.active, w.age as real);
      && Derive(p).Success?
      && Run(model, w, pressed).assessment.modelInput.values == ToRow(Derive(p).value)
  {
    var ms := ReadWidgets(w).value;
    assert Run(model, w, pressed).assessment.modelInput == DashboardFrame(ms, w);
  }

  /** A model whose feature names are the scaler's columns is told the age is 0,
      whatever the age widget says; every other value of the dashboard's frame arrives
      unchanged. */
  lemma {:induction false} AgeZeroForScalerNames(model: Option<Model>, w: Widgets, pressed: bool)
    requires Run(model, w, pressed).Shown?
    requires model.value.featureNames == Some(FeatureColumns)
    ensures ReadWidgets(w).Success?
    ensures
      var frame := DashboardFrame(ReadWidgets(w).value, w);
      Run(model, w, pressed).assessment.modelInput.values == frame.values[10 := 0.0]
  {
    var frame := DashboardFrame(ReadWidgets(w).value, w);
    assert Run(model, w, pressed).assessment.modelInput == Reindex(frame, FeatureColumns);
    AgeLostUnderScalerColumns(frame);
  }
}

=== FILE: features.dfy ===
/** The patient record both front ends collect, the two measures derived from it,
    and the 13-column feature vector the scaler and the classifier were fitted on. */
module Features {
  import opened Common

  /** The eleven attributes read from the user, in the units the forms ask for
      (centimetres, kilograms, mmHg, years; codes for the categorical ones). */
  datatype PatientInput = PatientInput(
    gender: int,
    height: real,
    weight: real,
    apHi: real,
    apLo: real,
    cholesterol: int,
    gluc: int,
    smoke: int,
    alco: int,
    active: int,
    ageYear: real)

  /** The message Python gives a float division by zero. */
  const ZeroDivisionMessage := "float division by zero"

  /** Body-mass index from kilograms and centimetres, `weight / (height / 100) ** 2`;
      a zero height raises ZeroDivisionError instead. */
  function Bmi(weight: real, height: real): (r: Result<real>)
    ensures r.Success? <==> height != 0.0
    ensures r.Success? ==> r.value * ((height / 100.0) * (height / 100.0)) == weight
    ensures r.Failure? ==> r.error == ZeroDivisionMessage
  {
    var metres := height / 100.0;
    if metres == 0.0 then Failure(ZeroDivisionMessage)
    else
      var bmi := weight / (metres * metres);
      assert bmi * (metres * metres) == weight;
      Success(bmi)
  }

  /** The model inputs: the patient record plus body-mass index and pulse pressure. */
  datatype FeatureVector = FeatureVector(input: PatientInput, bmi: real, pulsePressure: real)

  /** Derives the two computed features. Pulse pressure is systolic minus diastolic
      whatever their order: nothing here rejects a diastolic above the systolic. */
  function Derive(p: PatientInput): (r: Result<FeatureVector>)
    ensures r.Success? <==> p.height != 0.0
    ensures r.Failure? ==> r.error == ZeroDivisionMessage
    ensures r.Success? ==> r.value.input == p
    ensures r.Success? ==> r.value.bmi * ((p.height / 100.0) * (p.height / 100.0)) == p.weight
    ensures r.Success? ==> r.value.pulsePressure + p.apLo == p.apHi
    ensures r.Success? ==> (r.value.pulsePressure < 0.0 <==> p.apLo > p.apHi)
  {
    var bmi :- Bmi(p.weight, p.height);
    Success(FeatureVector(p, bmi, p.apHi - p.apLo))
  }

  /** Column names in the order the scaler and the classifier were fitted on. */
  const FeatureColumns: seq<string> := [
    "gender", "height", "weight", "ap_hi", "ap_lo", "cholesterol", "gluc",
    "smoke", "alco", "active", "Age_Year", "bmi", "pulse_pressure"]

  /** The value of a feature looked up by its column name, independently of any layout. */
  function Feature(v: FeatureVector, name: string): Option<real> {
    if name == "gender" then Some(v.input.gender as real)
    else if name == "height" then Some(v.input.height)
    else if name == "weight" then Some(v.input.weight)
    else if name == "ap_hi" then Some(v.input.apHi)
    else if name == "ap_lo" then Some(v.input.apLo)
    else if name == "cholesterol" then Some(v.input.cholesterol as real)
    else if name == "gluc" then Some(v.input.gluc as real)
    else if name == "smoke" then Some(v.input.smoke as real)
    else if name == "alco" then Some(v.input.alco as real)
    else if name == "active" then Some(v.input.active as real)
    else if name == "Age_Year" then Some(v.input.ageYear)
    else if name == "bmi" then Some(v.bmi)
    else if name == "pulse_pressure" then Some(v.pulsePressure)
    else None
  }

  /** The one-row float64 array handed to the scaler. */
  function ToRow(v: FeatureVector): (row: Row)
    ensures |row| == |FeatureColumns| == 13
  {
    [ v.input.gender as real, v.input.height, v.input.weight, v.input.apHi, v.input.apLo,
      v.input.cholesterol as real, v.input.gluc as real, v.input.smoke as real,
      v.input.alco as real, v.input.active as real, v.input.ageYear, v.bmi, v.pulsePressure ]
  }

  /** No column name is used twice. */
  lemma ColumnsDistinct()
    ensures Distinct(FeatureColumns)
  {
  }

  /** Slot i of the row holds exactly the feature named by column i. */
  lemma RowFollowsColumns(v: FeatureVector)
    ensures forall i | 0 <= i < |FeatureColumns| :: Feature(v, FeatureColumns[i]) == Some(ToRow(v)[i])
  {
  }

  /** Two different feature vectors never produce the same row: no feature is lost or overwritten. */
  lemma RowIsInjective(v: FeatureVector, w: FeatureVector)
    requires ToRow(v) == ToRow(w)
    ensures v == w
  {
    assert ToRow(v)[0] == ToRow(w)[0];
  }
}

=== FILE: numbers.dfy ===
/** The numeric conversions the request handler relies on: the subset of Python's
    `int(str)` and `float(str)` that plain decimal numerals go through, their
    inverse renderings, and `round(x, 1)` taken on exact values. */
module Numbers {
  import opened Common

  predicate IsDigit(c: char) {
    '0' <= c <= '9'
  }

  predicate AllDigits(s: string) {
    forall i | 0 <= i < |s| :: IsDigit(s[i])
  }

  function DigitChar(d: nat): (c: char)
    requires d < 10
    ensures IsDigit(c)
    ensures c as int - '0' as int == d
  {
    ('0' as int + d) as char
  }

  function Pow10(k: nat): (p: nat)
    ensures p >= 1
  {
    if k == 0 then 1 else 10 * Pow10(k - 1)
  }

  /** The number a run of decimal digits denotes, most significant digit first;
      k digits never denote 10^k or more. */
  function DigitsValue(s: string): (n: nat)
    requires AllDigits(s)
    ensures n < Pow10(|s|)
  {
    if |s| == 0 then 0
    else
      var init := DigitsValue(s[..|s| - 1]);
      var d := s[|s| - 1] as int - '0' as int;
      assert init * 10 <= (Pow10(|s| - 1) - 1) * 10;
      init * 10 + d
  }

  /** Decimal rendering of a natural number, without leading zeros. */
  function NatToString(n: nat): (s: string)
    ensures |s| > 0 && AllDigits(s)
    ensures DigitsValue(s) == n
    ensures s[0] == '0' ==> s == "0"
    decreases n
  {
    if n < 10 then [DigitChar(n)]
    else
      var prefix := NatToString(n / 10);
      var s := prefix + [DigitChar(n % 10)];
      assert s[..|s| - 1] == prefix;
      s
  }

  /** Splits an optional leading '-' or '+' off a numeral; the flag says "negative". */
  function SplitSign(s: string): (r: (bool, string))
    ensures r.0 ==> s == "-" + r.1
    ensures !r.0 ==> s == r.1 || s == "+" + r.1
  {
    if |s| > 0 && s[0] == '-' then (true, s[1..])
    else if |s| > 0 && s[0] == '+' then (false, s[1..])
    else (false, s)
  }

  /** Position of the first occurrence of c in s, if any. */
  function IndexOf(s: string, c: char): (r: Option<nat>)
    ensures r.None? ==> c !in s
    ensures r.Some? ==> r.value < |s| && s[r.value] == c && c !in s[..r.value]
  {
    if |s| == 0 then None
    else if s[0] == c then Some(0)
    else
      var rest := IndexOf(s[1..], c);
      if rest.None? then None
      else
        assert s[..rest.value + 1] == [s[0]] + s[1..][..rest.value];
        Some(rest.value + 1)
  }

  lemma NoPointInDigits(s: string)
    requires AllDigits(s)
    ensures '.' !in s
  {
    forall k | 0 <= k < |s|
      ensures s[k] != '.'
    {
      assert IsDigit(s[k]);
    }
  }

  /** A search that finds nothing in a skips over it: the first c of a + b is the first c of b. */
  lemma {:induction false} IndexOfSkips(a: string, b: string, c: char)
    requires c !in a
    ensures IndexOf(a + b, c)
         == (var rb := IndexOf(b, c); if rb.None? then None else Some(|a| + rb.value))
    decreases |a|
  {
    if |a| == 0 {
      assert a + b == b;
    } else {
      assert (a + b)[0] == a[0];
      assert (a + b)[1..] == a[1..] + b;
      IndexOfSkips(a[1..], b, c);
    }
  }

  /** The message of the ValueError `int()` raises on s. */
  function IntErrorMessage(s: string): string {
    "invalid literal for int() with base 10: '" + s + "'"
  }

  /** The message of the ValueError `float()` raises on s. */
  function FloatErrorMessage(s: string): string {
    "could not convert string to float: '" + s + "'"
  }

  predicate IsSign(c: char) {
    c == '+' || c == '-'
  }

  /** Some character of s is a decimal digit. */
  predicate HasDigit(s: string) {
    exists i | 0 <= i < |s| :: IsDigit(s[i])
  }

  /** Every character is a digit, except that the first may be a sign. */
  predicate IntShape(s: string) {
    forall i | 0 <= i < |s| :: IsDigit(s[i]) || (i == 0 && IsSign(s[i]))
  }

  /** Every character is a digit or a decimal point, except that the first may be a
      sign, and no decimal point follows another. */
  predicate FloatShape(s: string) {
    && (forall i | 0 <= i < |s| :: IsDigit(s[i]) || s[i] == '.' || (i == 0 && IsSign(s[i])))
    && (forall i | 0 <= i < |s| && s[i] == '.' :: '.' !in s[i + 1..])
  }

  /** What a numeral's shape says about the part after its sign. */
  lemma ShapeAfterSign(s: string)
    ensures var digits := SplitSign(s).1;
      && (IntShape(s) <==> AllDigits(digits))
      && (HasDigit(s) <==> HasDigit(digits))
      && (HasDigit(digits) ==> |digits| > 0)
      && (FloatShape(s) <==> FloatShape(digits) && (|digits| > 0 ==> !IsSign(digits[0])))
  {
    if |s| > 0 && IsSign(s[0]) {
      ShapeAfterLeadingSign(s);
    } else {
      assert SplitSign(s).1 == s;
    }
  }

  /** The same, for a numeral that does start with a sign. */
  lemma ShapeAfterLeadingSign(s: string)
    requires |s| > 0 && IsSign(s[0])
    ensures var digits := s[1..];
      && (IntShape(s) <==> AllDigits(digits))
      && (HasDigit(s) <==> HasDigit(digits))
      && (FloatShape(s) <==> FloatShape(digits) && (|digits| > 0 ==> !IsSign(digits[0])))
  {
    var digits := s[1..];
    assert forall i | 1 <= i < |s| :: s[i] == digits[i - 1];
    if HasDigit(s) {
      var i :| 0 <= i < |s| && IsDigit(s[i]);
      assert IsDigit(digits[i - 1]);
    }
    if HasDigit(digits) {
      var i :| 0 <= i < |digits| && IsDigit(digits[i]);
      assert IsDigit(s[i + 1]);
    }
    forall i | 1 <= i < |s|
      ensures s[i + 1..] == digits[i..]
    {
    }
  }

  /** Python's `int(s)` on a string: an optional sign followed by at least one decimal digit. */
  function ParseInt(s: string): (r: Result<int>)
    ensures r.Success? <==> IntShape(s) && HasDigit(s)
    ensures r.Failure? ==> r.error == IntErrorMessage(s)
    ensures r.Success? && r.value < 0 ==> s[0] == '-'
  {
    var (negative, digits) := SplitSign(s);
    ShapeAfterSign(s);
    if |digits| > 0 && AllDigits(digits) then
      var n: int := DigitsValue(digits);
      Success(if negative then -n else n)
    else
      Failure(IntErrorMessage(s))
  }

  /** A run of digits has a float's shape, and holds a digit unless it is empty. */
  lemma DigitsShape(s: string)
    requires AllDigits(s)
    ensures FloatShape(s) && (|s| > 0 ==> !IsSign(s[0]) && HasDigit(s))
  {
    if |s| > 0 {
      assert IsDigit(s[0]);
    }
  }

  /** Digits, one point, digits, with a digit somewhere, have a float's shape. */
  lemma JoinShape(whole: string, frac: string)
    requires AllDigits(whole) && AllDigits(frac) && |whole| + |frac| > 0
    ensures var body := whole + "." + frac;
      FloatShape(body) && !IsSign(body[0]) && HasDigit(body)
  {
    var body := whole + "." + frac;
    var p := |whole|;
    assert forall i | 0 <= i < p :: body[i] == whole[i];
    assert forall i | p < i < |body| :: body[i] == frac[i - p - 1];
    assert body[p + 1..] == frac;
    assert '.' !in frac by {
      forall i | 0 <= i < |frac| ensures frac[i] != '.' {
        assert IsDigit(frac[i]);
      }
    }
    if p > 0 {
      assert IsDigit(body[0]);
    } else {
      assert IsDigit(body[p + 1]);
    }
  }

  /** A float-shaped body without a leading sign, cut at its first point, is digits on
      both sides. */
  lemma CutShape(body: string, p: nat)
    requires p < |body| && body[p] == '.' && '.' !in body[..p]
    requires FloatShape(body) && !IsSign(body[0])
    ensures AllDigits(body[..p]) && AllDigits(body[p + 1..])
  {
    forall i | 0 <= i < p
      ensures IsDigit(body[..p][i])
    {
      assert body[..p][i] == body[i];
    }
    var frac := body[p + 1..];
    assert '.' !in frac;
    forall i | 0 <= i < |frac|
      ensures IsDigit(frac[i])
    {
      assert frac[i] == body[p + 1 + i];
      assert frac[i] in frac;
    }
  }

  /** The shape of a numeral body without a decimal point. */
  predicate FloatBody(body: string) {
    FloatShape(body) && (|body| > 0 ==> !IsSign(body[0])) && HasDigit(body)
  }

  /** A body without a decimal point is a non-empty digit run exactly when it is float-shaped. */
  lemma NoPointShape(body: string)
    requires '.' !in body
    ensures (|body| > 0 && AllDigits(body)) <==> FloatBody(body)
  {
    if AllDigits(body) {
      DigitsShape(body);
    }
    if FloatBody(body) {
      forall i | 0 <= i < |body|
        ensures IsDigit(body[i])
      {
        assert body[i] in body;
      }
    }
  }

  /** A body cut at its first decimal point is two digit runs, not both empty, exactly
      when it is float-shaped. */
  lemma PointShape(body: string, p: nat)
    requires p < |body| && body[p] == '.' && '.' !in body[..p]
    ensures (|body| - 1 > 0 && AllDigits(body[..p]) && AllDigits(body[p + 1..])) <==> FloatBody(body)
  {
    var whole, frac := body[..p], body[p + 1..];
    assert body == whole + "." + frac;
    if |whole| + |frac| > 0 && AllDigits(whole) && AllDigits(frac) {
      JoinShape(whole, frac);
    }
    if FloatBody(body) {
      CutShape(body, p);
      var k :| 0 <= k < |body| && IsDigit(body[k]);
      assert k != p;
    }
  }

  /** Cutting a body at its first decimal point, if any, leaves two digit runs, not
      both empty, exactly when the body is float-shaped. */
  lemma SplitPoint(body: string)
    ensures var point := IndexOf(body, '.');
      var whole := if point.Some? then body[..point.value] else body;
      var frac := if point.Some? then body[point.value + 1..] else "";
      (|whole| + |frac| > 0 && AllDigits(whole) && AllDigits(frac)) <==> FloatBody(body)
  {
    var point := IndexOf(body, '.');
    if point.Some? {
      PointShape(body, point.value);
    } else {
      NoPointShape(body);
    }
  }

  /** The number that digit runs w and f around a decimal point denote: w plus f over
      ten to the number of digits of f. */
  function DecimalValue(w: string, f: string): (x: real)
    requires AllDigits(w) && AllDigits(f)
    ensures x >= 0.0
  {
    var fraction := DigitsValue(f) as real / Pow10(|f|) as real;
    assert fraction >= 0.0;
    DigitsValue(w) as real + fraction
  }

  /** The value of an unsigned decimal numeral: digits, then optionally a point and
      more digits, with a digit on at least one side of the point. */
  function UnsignedDecimal(body: string): (r: Option<real>)
    ensures r.Some? <==> FloatBody(body)
    ensures r.Some? ==> r.value >= 0.0
  {
    var point := IndexOf(body, '.');
    var whole := if point.Some? then body[..point.value] else body;
    var frac := if point.Some? then body[point.value + 1..] else "";
    SplitPoint(body);
    if |whole| + |frac| > 0 && AllDigits(whole) && AllDigits(frac) then
      Some(DecimalValue(whole, frac))
    else
      None
  }

  /** Python's `float(s)` on a plain decimal numeral: an optional sign, then digits
      with at most one decimal point and at least one digit around it. */
  function ParseFloat(s: string): (r: Result<real>)
    ensures r.Success? <==> FloatShape(s) && HasDigit(s)
    ensures r.Failure? ==> r.error == FloatErrorMessage(s)
    ensures r.Success? && r.value < 0.0 ==> s[0] == '-'
  {
    var (negative, body) := SplitSign(s);
    ShapeAfterSign(s);
    match UnsignedDecimal(body)
    case None => Failure(FloatErrorMessage(s))
    case Some(x) => Success(if negative then -x else x)
  }

  /** Python's `str(i)` for an integer; `int()` reads it back unchanged. */
  function IntToString(i: int): (s: string)
    ensures ParseInt(s) == Success(i)
  {
    if i < 0 then
      var digits := NatToString(-i);
      assert SplitSign("-" + digits) == (true, digits);
      "-" + digits
    else
      var digits := NatToString(i);
      assert SplitSign(digits) == (false, digits);
      digits
  }

  /** A leading zero does not change the number a digit run denotes. */
  lemma {:induction false} LeadingZero(d: string)
    requires AllDigits(d)
    ensures AllDigits("0" + d) && DigitsValue("0" + d) == DigitsValue(d)
    decreases |d|
  {
    var z := "0" + d;
    if |d| == 0 {
      assert z[..0] == "";
    } else {
      assert z[..|z| - 1] == "0" + d[..|d| - 1];
      assert z[|z| - 1] == d[|d| - 1];
      LeadingZero(d[..|d| - 1]);
    }
  }

  /** `int()` of a numeral whose sign splits off to leave a digit run. */
  lemma ParseIntSplit(s: string, negative: bool, digits: string)
    requires SplitSign(s) == (negative, digits) && |digits| > 0 && AllDigits(digits)
    ensures ParseInt(s) == Success(if negative then -(DigitsValue(digits) as int) else DigitsValue(digits))
  {
  }

  /** `int()` reads any digit run, signed or not and with or without leading zeros, as
      the number it denotes: "+7" and "007" are 7, "-07" is -7. */
  lemma ParseIntOfDigits(d: string)
    requires |d| > 0 && AllDigits(d)
    ensures ParseInt(d) == Success(DigitsValue(d))
    ensures ParseInt("+" + d) == Success(DigitsValue(d))
    ensures ParseInt("-" + d) == Success(-(DigitsValue(d) as int))
    ensures ParseInt("0" + d) == Success(DigitsValue(d))
  {
    assert IsDigit(d[0]);
    ParseIntSplit(d, false, d);
    assert ("+" + d)[1..] == d;
    ParseIntSplit("+" + d, false, d);
    assert ("-" + d)[1..] == d;
    ParseIntSplit("-" + d, true, d);
    LeadingZero(d);
    ParseIntSplit("0" + d, false, "0" + d);
  }

  /** Every numeral `int()` accepts, `float()` accepts too, with the same value. */
  lemma {:induction false} ParseFloatExtendsParseInt(s: string)
    requires ParseInt(s).Success?
    ensures ParseFloat(s) == Success(ParseInt(s).value as real)
  {
    var (negative, body) := SplitSign(s);
    assert AllDigits(body) && |body| > 0;
    NoPointInDigits(body);
    assert IndexOf(body, '.') == None;
    assert DigitsValue("") == 0 && Pow10(0) == 1;
  }

  /** `float()` reads the decimal rendering of a natural number back as that number. */
  lemma ParseFloatOfNatString(n: nat)
    ensures ParseFloat(NatToString(n)) == Success(n as real)
  {
    assert IntToString(n) == NatToString(n);
    ParseFloatExtendsParseInt(NatToString(n));
  }

  /** Digits, a point and digits, not both runs empty: the value is the whole part plus
      the fraction. */
  lemma {:induction false} UnsignedDecimalPoint(whole: string, f: string)
    requires AllDigits(whole) && AllDigits(f) && |whole| + |f| > 0
    ensures UnsignedDecimal(whole + "." + f) == Some(DecimalValue(whole, f))
  {
    var s := whole + "." + f;
    FirstPointAfterDigits(whole, f);
    assert s[..|whole|] == whole;
    assert s[|whole| + 1..] == f;
  }

  /** The first decimal point of digits, a point and more text is the one after the digits. */
  lemma FirstPointAfterDigits(whole: string, rest: string)
    requires AllDigits(whole)
    ensures IndexOf(whole + "." + rest, '.') == Some(|whole|)
  {
    NoPointInDigits(whole);
    assert whole + "." + rest == whole + ("." + rest);
    IndexOfSkips(whole, "." + rest, '.');
  }

  /** A '-' in front of an unsigned numeral negates its value; a '+' leaves it alone. */
  lemma ParseFloatSign(body: string)
    requires |body| > 0 && !IsSign(body[0]) && UnsignedDecimal(body).Some?
    ensures ParseFloat(body) == Success(UnsignedDecimal(body).value)
    ensures ParseFloat("+" + body) == Success(UnsignedDecimal(body).value)
    ensures ParseFloat("-" + body) == Success(-UnsignedDecimal(body).value)
  {
    assert SplitSign(body) == (false, body);
    assert ("+" + body)[1..] == body;
    assert SplitSign("+" + body) == (false, body);
    assert ("-" + body)[1..] == body;
    assert SplitSign("-" + body) == (true, body);
  }

  /** Digits, a point and digits start with a digit or the point, never with a sign. */
  lemma PointNumeralUnsigned(whole: string, frac: string)
    requires AllDigits(whole)
    ensures !IsSign((whole + "." + frac)[0])
  {
    if |whole| > 0 {
      assert IsDigit(whole[0]);
    }
  }

  /** `float()` on any decimal numeral with a point, unsigned or signed, such as "80.5",
      "-80.5", "+1.5", ".5" or "7.": the whole part plus the fraction, negated after a '-'. */
  lemma {:induction false} ParseFloatSignedDecimal(whole: string, frac: string)
    requires AllDigits(whole) && AllDigits(frac) && |whole| + |frac| > 0
    ensures ParseFloat(whole + "." + frac) == Success(DecimalValue(whole, frac))
    ensures ParseFloat("+" + (whole + "." + frac)) == Success(DecimalValue(whole, frac))
    ensures ParseFloat("-" + (whole + "." + frac)).Success?
    ensures ParseFloat("-" + (whole + "." + frac)).value == -DecimalValue(whole, frac)
  {
    var body := whole + "." + frac;
    UnsignedDecimalPoint(whole, frac);
    PointNumeralUnsigned(whole, frac);
    ParseFloatSign(body);
  }

  /** `float()` reads "w.f", with w the rendering of a natural number, as w plus the
      fraction f over ten to the number of its digits; the special case of
      `ParseFloatSignedDecimal` the form's own numerals such as "80.5" fall under. */
  lemma ParseFloatDecimal(w: nat, f: string)
    requires AllDigits(f)
    ensures ParseFloat(NatToString(w) + "." + f) == Success(DecimalValue(NatToString(w), f))
    ensures DecimalValue(NatToString(w), f) == w as real + DigitsValue(f) as real / Pow10(|f|) as real
  {
    ParseFloatSignedDecimal(NatToString(w), f);
  }

  /** Nearest integer to y, ties going to the even neighbour (the rule of Python's `round`). */
  function RoundHalfEven(y: real): (n: int)
    ensures -0.5 <= n as real - y <= 0.5
    ensures (n as real - y == 0.5 || y - n as real == 0.5) ==> n % 2 == 0
  {
    var f := y.Floor;
    var gap := y - f as real;
    if gap < 0.5 then f
    else if gap > 0.5 then f + 1
    else if f % 2 == 0 then f
    else f + 1
  }

  /** Python's `round(x, 1)` on the exact value x: the nearest multiple of one tenth,
      ties to the even multiple. */
  function Round1(x: real): (r: real)
    ensures -0.05 <= r - x <= 0.05
    ensures (r * 10.0).Floor as real == r * 10.0
  {
    var n := RoundHalfEven(x * 10.0);
    var r := n as real / 10.0;
    assert r * 10.0 == n as real;
    assert (n as real).Floor == n;
    assert r - x == (n as real - x * 10.0) / 10.0;
    r
  }

  lemma RoundHalfEvenOfInteger(n: int)
    ensures RoundHalfEven(n as real) == n
  {
  }

  /** Rounding never reverses the order of two values. */
  lemma RoundHalfEvenMonotone(x: real, y: real)
    requires x <= y
    ensures RoundHalfEven(x) <= RoundHalfEven(y)
  {
    var fx, fy := x.Floor, y.Floor;
    if fx == fy {
      assert x - fx as real <= y - fy as real;
    } else {
      assert fx < fy;
    }
  }

  lemma Round1Monotone(x: real, y: real)
    requires x <= y
    ensures Round1(x) <= Round1(y)
  {
    RoundHalfEvenMonotone(x * 10.0, y * 10.0);
  }

  /** A value already on the one-decimal grid is left alone, so rounding twice is rounding once. */
  lemma Round1Idempotent(x: real)
    ensures Round1(Round1(x)) == Round1(x)
  {
    var n := RoundHalfEven(x * 10.0);
    assert Round1(x) * 10.0 == n as real;
    RoundHalfEvenOfInteger(n);
  }

  /** A probability in [0, 1], scaled to a percentage and rounded, stays within [0, 100]. */
  lemma Round1Percent(p: real)
    requires 0.0 <= p <= 1.0
    ensures 0.0 <= Round1(p * 100.0) <= 100.0
  {
    Round1Monotone(0.0, p * 100.0);
    Round1Monotone(p * 100.0, 100.0);
    RoundHalfEvenOfInteger(0);
    RoundHalfEvenOfInteger(1000);
  }
}
